=== FILE: README.md ===
# On-Learn backend core, modelled in Dafny

This project models the authentication and course-administration core of the
On-Learn learning platform's Express/Mongoose backend:

- the **account lifecycle**: registration, email verification with a
  six-digit one-time code, resending that code, login with a refresh-token
  session bound to the client's address and user agent, token refresh,
  logout and password change;
- the **request gates**: the access-token middleware, passport's lookup of
  the token's user, and the admin-role check, also composed into the chain
  the admin routes run (`AuthMachine.AdminChain`);
- the **course rules**: the slug grammar, `slugify`, the create-course
  schema's bounds, the instructor/co-instructor permission check, the sparse
  course-details update and appending sections;
- **profile update and the paginated user listings**, together with the
  person-name validator.

Each Mongo collection is an insertion-ordered sequence. Each handler is a pure
function from the stores and its request to the new stores and a reply (a
status, a message, a cookie effect and an optional body). The clock is one
natural number of milliseconds.

The following are parameters rather than modelled computation:

- identifiers the database generates, salts, `Math.random()` draws and the
  tokens the issuer mints;
- the mail transport's success;
- the client's address and `user-agent` header;
- the `validator`, `bcrypt` and `jsonwebtoken` libraries and the Unicode
  letter class `\p{L}`, which are uninterpreted functions bundled in
  `Externals.Lib`.

The handlers are also composed into one state machine (`AuthMachine.Step`),
which routes logout and password change through the gates as the router
does. A store invariant is proved over every sequential run. It says:

- no two users share an id or an email;
- every code record belongs to a registered user;
- no user ever has two live codes.

Modules, one per file: `Js` (the JavaScript built-ins the handlers rely on),
`Http`, `Store`, `Models`, `Externals`, `NameValidator`, `CourseModel`,
`Courses`, `EmailConfig`, `AccessTokenGate`, `AdminGate`, `AuthController`,
`AuthMachine`, `UserController` and `CourseController`.

Four behaviours of the code a reader may not expect:

- **Refresh does not store the new token.** A successful refresh mints new
  cookies, but the stored session record is left unchanged: the new refresh
  token is never recorded, and the old one keeps working
  (`AuthMachine.RefreshTokenReusable`).
- **Login never overwrites a session.** Every login adds a session record.
  Refresh looks the record up by user id, so it finds the oldest live one. A
  second device's refresh therefore meets the first device's record, deletes
  it on the fingerprint mismatch and is refused
  (`AuthMachine.SecondClientRefreshEvictsFirst`).
- **A failed resend is a 400.** When `resendOtp` finds the code mailer
  failing (throttled, or the mail not sent), it answers 400 with the mailer's
  message, not the mailer's own status (`AuthController.ResendOtp`).
- **A create-course body cannot carry `discountValidUntil`.** The schema
  declares it as `z.date()`, but a JSON body has no date values, only
  strings, so any supplied value is refused with 400
  (`Courses.ParseCreateCourse`).

## Model

| member | source | states |
|---|---|---|
| `Js.Trim` | Backend/src/utils/nameValidator.js:5 | the result is the input with the maximal whitespace runs cut off both ends; it is empty exactly when the input is all whitespace |
| `Js.TrimIdempotent` | Backend/src/controllers/user.controller.js:31 | trimming an already trimmed string changes nothing |
| `Js.ToLowerAscii` | Backend/src/utils/Courses.js:34 | lower-casing keeps the length and maps each character through the ASCII case map |
| `Js.Utf16Length` | Backend/src/controllers/user.controller.js:44 | a string's JavaScript length lies between its character count and twice that |
| `Js.NatToDecimal` | Backend/src/config/email.config.js:29 | `toString` of a natural number is a non-empty digit string without a leading zero (except for 0 itself) |
| `Js.DecimalRoundTrip` | Backend/src/config/email.config.js:29 | reading the decimal rendering of n back gives n |
| `Js.LeadingZerosValue` | Backend/src/models/VerifyModel.js:9-12 | leading zeros do not change a digit string's value, so storing the code as text loses nothing numerically |
| `Js.DigitStringNumber` | Backend/src/controllers/auth.controller.js:122 | `Number` of a decimal digit string, with or without leading zeros, is its value |
| `Js.ParseIntOfDigits` | Backend/src/controllers/user.controller.js:74-75 | `parseInt` reads a non-empty decimal digit string as its value, with or without radix 10 |
| `Js.ParseIntOfDecimal` | Backend/src/controllers/user.controller.js:102-103 | `parseInt` of the decimal rendering of n gives n back, with or without radix 10 |
| `Http.ReportedStatus` | Backend/src/middleware/error-handler.js:3-5 | an error's own status is reported when truthy, 500 otherwise |
| `Http.Error` | Backend/src/templates/errorHandler.js:1-8 | an error reply carries exactly the given status and message, no body and no cookie change |
| `Http.Fault` | Backend/src/middleware/error-handler.js:4-5 | an uncaught fault is reported as 500 and leaves cookies alone |
| `Http.ApplyCookies` | Backend/src/controllers/auth.controller.js:268-278 | setting tokens puts both token cookies in the jar, clearing removes both, and an unchanged reply keeps the jar |
| `Store.FindFirst` | Backend/src/controllers/auth.controller.js:44 | the result is the first index matching the filter, or none when no document matches |
| `Store.RemoveAt` | Backend/src/controllers/auth.controller.js:132 | deleting one document keeps all others in order and removes exactly that one from the multiset |
| `Store.Filter` | Backend/src/controllers/user.controller.js:79-83 | a query returns exactly the documents satisfying the filter |
| `Store.FilterAppend` | Backend/src/controllers/user.controller.js:79-83 | a query over two runs of documents returns the first run's matches followed by the second's, so store order is kept |
| `Store.FilterSingle` | Backend/src/controllers/user.controller.js:79-83 | a single document is returned once when it matches and not at all otherwise |
| `Store.RemoveAtKeeps` | Backend/src/controllers/auth.controller.js:239 | deleting a document adds none |
| `Store.FindFirstAgrees` | Backend/src/controllers/course.controller.js:50 | two stores that agree position by position on a filter give the same lookup result |
| `Store.FindFirstAppend` | Backend/src/controllers/auth.controller.js:104 | after appending a matching document to a store without a match, the lookup finds the new document |
| `Models.ToPublic` | Backend/src/controllers/auth.controller.js:57-58 | the exposed user is the stored one field by field, without the password |
| `Models.NewUser` | Backend/src/models/User.js:4-61 | a new user gets its email lower-cased and trimmed, its names trimmed, the student role, active, unverified, the default avatar and no bio |
| `Models.NormalizeEmailIdempotent` | Backend/src/models/User.js:9-10 | normalising an already normalised email (lower-cased and trimmed) changes nothing |
| `Models.LivenessMonotone` | Backend/src/models/refreshToken.model.js:28-32 | a code or session record live at some instant was live at every earlier instant |
| `NameValidator.ValidatorLength` | Backend/src/utils/nameValidator.js:5 | the validator's length never exceeds the character count |
| `NameValidator.ValidateName` | Backend/src/utils/nameValidator.js:3-8 | a name is accepted exactly when it is non-blank, its trimmed length is between 2 and 50, and every character is a letter, whitespace, an apostrophe or a dash |
| `NameValidator.BlankNameRejected` | Backend/src/utils/nameValidator.js:4 | an empty or whitespace-only name is rejected |
| `NameValidator.ValidateNameTrimInvariant` | Backend/src/utils/nameValidator.js:5-6 | a name is valid exactly when its trimmed form is valid |
| `CourseModel.ParseCategory` | Backend/src/utils/Courses.js:7-13 | a category is accepted exactly when it is one of the five listed |
| `CourseModel.ParseLevel` | Backend/src/utils/Courses.js:14 | a level is accepted exactly when it is one of the three listed |
| `CourseModel.ParsePricingType` | Backend/src/utils/Courses.js:16 | a pricing type is accepted exactly when it is one of the three listed |
| `Courses.ShapeAfterAlnum` | Backend/src/utils/Courses.js:5 | one group character in front of a string gives a slug exactly when the rest is empty, a slug, or a dash followed by a slug |
| `Courses.SlugRunShape` | Backend/src/utils/Courses.js:5 | from each matcher state, the regex matcher accepts exactly the strings of the corresponding shape |
| `Courses.SlugRegexIffShape` | Backend/src/utils/Courses.js:5 | the slug regex accepts a string exactly when it is non-empty, uses only `[a-z0-9-]`, has no dash at either end and no two dashes in a row |
| `Courses.NonAlnumRun` | Backend/src/utils/Courses.js:35 | the run measured is the maximal prefix outside `[a-z0-9]` |
| `Courses.CollapseRuns` | Backend/src/utils/Courses.js:35 | replacing each run outside `[a-z0-9]` with a dash gives `[a-z0-9-]` text without double dashes, empty only for empty input (its content is stated in `Courses.CollapseRunsIsJoinedWords`) |
| `Courses.DropLeadingDashes` | Backend/src/utils/Courses.js:36 | the result is a suffix of the input with no leading dash, and only dashes were dropped |
| `Courses.DropTrailingDashes` | Backend/src/utils/Courses.js:36 | the result is a prefix of the input with no trailing dash, and only dashes were dropped |
| `Courses.SliceKeepsSlugText` | Backend/src/utils/Courses.js:36 | cutting characters off either end keeps `[a-z0-9-]` text free of double dashes |
| `Courses.StripDashesShape` | Backend/src/utils/Courses.js:36 | stripping the end dashes of collapsed text leaves a slug or nothing |
| `Courses.SlugifyIsSlug` | Backend/src/utils/Courses.js:30-37 | `slugify`'s output uses only `[a-z0-9-]`, has no dash at either end and none doubled, and when non-empty is accepted by the slug regex |
| `Courses.CollapseKeepsSlugText` | Backend/src/utils/Courses.js:35 | a slug passes through the run-collapsing replacement unchanged |
| `Courses.SlugTextUnchangedByCase` | Backend/src/utils/Courses.js:33-34 | trimming and lower-casing leave a slug as it is |
| `Courses.SlugifyFixesSlugs` | Backend/src/utils/Courses.js:30-37 | `slugify` leaves a valid slug, and the empty string, unchanged |
| `Courses.SlugifyIdempotent` | Backend/src/utils/Courses.js:30-37 | applying `slugify` twice gives the same as applying it once |
| `Courses.Slugify` | Backend/src/utils/Courses.js:30-37 | `slugify`'s output is the words of the trimmed, lower-cased text (its maximal `[a-z0-9]` runs, in order) joined by single dashes |
| `Courses.CollapseRunsIsJoinedWords` | Backend/src/utils/Courses.js:35 | the run-collapsing replacement gives the text's words joined by single dashes, with one extra dash in front when the text starts outside `[a-z0-9]` and one at the end when it ends outside it (after at least one word) |
| `Courses.StripCollapsedIsJoinedWords` | Backend/src/utils/Courses.js:35-36 | collapsing the runs and then stripping the end dashes gives exactly the words joined by single dashes |
| `Courses.WordsAreTheAlnums` | Backend/src/utils/Courses.js:35 | the words, put together, are exactly the text's `[a-z0-9]` characters in order |
| `Courses.CollapseKeepsAlnums` | Backend/src/utils/Courses.js:35 | the run-collapsing replacement keeps every `[a-z0-9]` character, in order, and adds none |
| `Courses.SlugifyKeepsAlnums` | Backend/src/utils/Courses.js:30-37 | the `[a-z0-9]` characters of `slugify`'s output are exactly those of the trimmed, lower-cased text, in order |
| `Courses.ParseCreateCourse` | Backend/src/utils/Courses.js:3-28 | the schema accepts a body exactly when every length, regex, enumeration and numeric bound holds and no `discountValidUntil` is supplied, and the parsed course carries the body's values with optional keys left absent |
| `EmailConfig.OtpCode` | Backend/src/config/email.config.js:26 | every drawn code has six digits, from 100000 to 999999 |
| `EmailConfig.SendOtpVerificationMail` | Backend/src/config/email.config.js:14-60 | while a code is live: 429 and no write; otherwise exactly one record is appended holding the code's text and the current instant, the result is a success (200, "OTP sent successfully") exactly when the mail goes out, and a failed mail gives 500 with "Failed to send OTP" |
| `EmailConfig.SendKeepsOneLiveOtp` | Backend/src/config/email.config.js:16-30 | issuing a code keeps at most one live code per user |
| `EmailConfig.StoredCodeReadsBack` | Backend/src/config/email.config.js:26-29 | the stored text of a code converts back, through `Number`, to the drawn code |
| `AccessTokenGate.AccessGate` | Backend/src/middleware/accessTokenAutoRefresh.js:5-32 | a missing cookie: 401 and both cookies cleared; an expired token: 401 "TokenExpired"; any other failure: 401 "Token is not valid"; the gate continues exactly when the token verifies, handing on its claims and the bearer header |
| `AccessTokenGate.RejectCookies` | Backend/src/middleware/accessTokenAutoRefresh.js:8-14 | a refusal clears the cookies exactly when the gate said so |
| `AdminGate.IsAdmin` | Backend/src/middleware/isAdmin.js:4-16 | no user: 401; a non-admin: 403; the gate continues exactly for an admin |
| `AuthController.AgentOf` | Backend/src/controllers/auth.controller.js:168 | the user agent is the header when it is present and non-empty, "Unknown" otherwise |
| `AuthController.RegisteredUser` | Backend/src/controllers/auth.controller.js:48-55 | the registered document holds the password's hash, the normalised email, the generated id and an unverified flag |
| `AuthController.CreateUser` | Backend/src/controllers/auth.controller.js:23-72 | invalid or missing fields: 400 exactly; a taken email: 409; a refusal changes nothing; a write appends the user and the mailer's code; a mailer failure is answered with the mailer's status and message and no body, a success with 200, "user created and please verify email" and the new user without its password |
| `AuthController.ResendOtp` | Backend/src/controllers/auth.controller.js:74-98 | unknown email: 404; verified user: 400; otherwise the mailer's store is kept, a success is 200 "OTP sent successfully" and a failure is 400 with the mailer's own message; users and sessions are never touched |
| `AuthController.VerifyEmail` | Backend/src/controllers/auth.controller.js:100-136 | 404 unknown user, then 400 already verified, then 404 no live code, then 400 wrong code, each changing nothing; success is 200 "OTP verified successfully" with no cookie change and no body, verifies that user alone and deletes exactly the matched code |
| `AuthController.NewSession` | Backend/src/controllers/auth.controller.js:170-176 | the session binds the refresh token to the user, the client's address and agent, and expires seven days after now |
| `AuthController.Login` | Backend/src/controllers/auth.controller.js:138-193 | missing fields or an unknown email: 400; a wrong password: 404; neither writes; success appends exactly one session, sets both cookies and replies with the tokens and the user summary |
| `AuthController.Refresh` | Backend/src/controllers/auth.controller.js:195-261 | a missing, expired or unverifiable cookie, no live session or no user: 401 with nothing changed; a fingerprint mismatch deletes that session and gives 401; a session whose user is gone: 401 "please login to continue", nothing changed; otherwise 200 "tokens updated successfully" with new cookies and no write |
| `AuthController.Logout` | Backend/src/controllers/auth.controller.js:263-281 | always 200 with both cookies cleared; the caller's first live session, if any, is removed and nothing else changes |
| `AuthController.ChangePassword` | Backend/src/controllers/auth.controller.js:283-304 | a missing field or a mismatched confirmation: 400 with nothing written; otherwise 200 "password changed successfully" with no cookie change and no body, and only the caller's password hash changes |
| `AuthMachine.Authenticate` | Backend/src/middleware/passport.js:11-24 | the gate's refusal is passed on; the chain continues exactly when the token verifies and its user exists, and every refusal is a 401 |
| `AuthMachine.AdminChain` | Backend/src/routes/admin/course.route.js:9-13 | the admin routes' chain passes on the token gate's and passport's 401s, answers a non-admin with 403, and continues exactly with the stored admin user |
| `AuthMachine.Refusal` | Backend/src/routes/users/auth.route.js:19-30 | a refusal by the chain is a reply with that status and message, no body, and cookies cleared exactly when the gate clears them |
| `AuthMachine.Step` | Backend/src/routes/users/auth.route.js:7-37 | a logout or password change the chain refuses is a 401 and changes nothing |
| `AuthMachine.InitialInv` | Backend/src/models/User.js:8 | the empty stores satisfy the invariant |
| `AuthMachine.InvLater` | Backend/src/models/VerifyModel.js:13-17 | time passing keeps the invariant |
| `AuthMachine.SameKeysKeepInv` | Backend/src/controllers/auth.controller.js:128-129 | changing users without touching ids or emails keeps the invariant |
| `AuthMachine.RemoveCodeKeepsInv` | Backend/src/controllers/auth.controller.js:132 | deleting a code record keeps the invariant |
| `AuthMachine.SendKeepsInv` | Backend/src/config/email.config.js:27-30 | issuing a code to a registered user keeps the invariant |
| `AuthMachine.AddUserKeepsInv` | Backend/src/controllers/auth.controller.js:50-55 | adding a user whose id and email are both new keeps the invariant |
| `AuthMachine.RegisterKeepsInv` | Backend/src/controllers/auth.controller.js:44-63 | registration keeps the invariant |
| `AuthMachine.ResendKeepsInv` | Backend/src/controllers/auth.controller.js:74-98 | resending a code keeps the invariant |
| `AuthMachine.VerifyKeepsInv` | Backend/src/controllers/auth.controller.js:100-136 | verification keeps the invariant |
| `AuthMachine.StepKeepsInv` | Backend/src/routes/users/auth.route.js:7-37 | every request keeps the invariant |
| `AuthMachine.RunKeepsInv` | Backend/src/routes/users/auth.route.js:7-37 | every state a time-ordered sequential run reaches satisfies the invariant |
| `AuthMachine.UnknownUserHasNoCode` | Backend/src/models/VerifyModel.js:4-8 | in a reachable state, no code record names an id no user has |
| `AuthMachine.RegisterNeverThrottled` | Backend/src/controllers/auth.controller.js:44-66 | a registration that writes a user is never throttled: it answers 200 when the mail goes out and 500 otherwise |
| `AuthMachine.RegisterWrites` | Backend/src/controllers/auth.controller.js:48-63 | in a reachable state, a registration appends exactly the new user and one code record for it |
| `AuthMachine.VerifyNewest` | Backend/src/controllers/auth.controller.js:104-132 | verifying the newest user with its only code succeeds, flips its flag and consumes the code |
| `AuthMachine.VerifyRegistered` | Backend/src/controllers/auth.controller.js:100-136 | a freshly registered user whose only code is the drawn one, submitted within its lifetime, is verified, the code is consumed, and no other user changes |
| `AuthMachine.RegisterThenVerify` | Backend/src/controllers/auth.controller.js:100-136 | registering, then submitting the drawn code within its lifetime, verifies the new user and leaves the code store as it was before registration |
| `AuthMachine.LoginIgnoresVerification` | Backend/src/controllers/auth.controller.js:138-193 | changing a user's verification flag changes no login reply |
| `AuthMachine.SecondClientRefreshEvictsFirst` | Backend/src/controllers/auth.controller.js:224-247 | when a user has two sessions, the second client's refresh meets the first client's session, deletes it, is refused, and leaves the second session in place |
| `AuthMachine.RefreshTokenReusable` | Backend/src/controllers/auth.controller.js:255-260 | after a successful refresh, the same refresh cookie succeeds again |
| `AuthMachine.LogoutThenGateRefuses` | Backend/src/controllers/auth.controller.js:263-281 | after a logout the browser holds no access token, so the gate refuses the next request with 401 and clears the cookies |
| `AuthMachine.LogoutRemovesOnlyCallers` | Backend/src/controllers/auth.controller.js:266 | logout never removes another user's session |
| `UserController.BuildUpdates` | Backend/src/controllers/user.controller.js:20-58 | the first failing check, in request order, decides the message; when all pass, the update holds exactly the supplied keys: names trimmed, the bio as sent, and the avatar reduced to url and public id |
| `UserController.ApplyUpdates` | Backend/src/controllers/user.controller.js:60-64 | supplied fields overwrite and every other field, including id, email and password, stays |
| `UserController.UpdateProfile` | Backend/src/controllers/user.controller.js:19-71 | a failed check: 400 with its message; a stored bio over 500: 500; no caller document: 404; none of these writes; otherwise only the caller's document changes, by the update, and is returned without its password |
| `UserController.StoredNamesValid` | Backend/src/controllers/user.controller.js:25-41 | names an accepted update stores still pass the name check |
| `UserController.UpdateProfileIdempotent` | Backend/src/controllers/user.controller.js:60-64 | repeating an accepted profile update leaves the store as the first did |
| `UserController.IntParam` | Backend/src/controllers/user.controller.js:74-75 | a non-zero parsed number is the value; NaN and 0 give the fallback, so a non-zero fallback makes the value non-zero |
| `UserController.CeilDiv` | Backend/src/controllers/user.controller.js:96 | the result is the ceiling of the quotient, for either sign of the divisor |
| `UserController.PageOf` | Backend/src/controllers/user.controller.js:81-82 | a page is the window of the list starting at the offset: its documents are those at the offset onwards, in order, and there are as many as the limit's absolute value, or all the rest when fewer remain; an offset past the end gives an empty page |
| `UserController.Public` | Backend/src/controllers/user.controller.js:80 | every listed document is exposed without its password, in order |
| `UserController.ListUsers` | Backend/src/controllers/user.controller.js:73-154 | a negative offset: 500; an empty page: 404 with the listing's message; otherwise 200 with the page, the total, the page number, the ceiling page count, and, only in the user listing, the limit used |
| `UserController.ListingDefaults` | Backend/src/controllers/user.controller.js:74-75 | without query parameters a listing shows the first ten selected documents |
| `UserController.UndefinedIsNaN` | Backend/src/controllers/user.controller.js:102 | `parseInt` of an absent parameter is NaN, with or without radix 10 |
| `UserController.PageQueryRoundTrip` | Backend/src/controllers/user.controller.js:102 | a page number written in decimal reaches the handler unchanged, in every listing |
| `UserController.PageNonEmptyIff` | Backend/src/controllers/user.controller.js:124 | for positive page and limit, a page is non-empty exactly when its number is at most the reported page count |
| `UserController.EveryItemOnItsPage` | Backend/src/controllers/user.controller.js:104-109 | every selected document appears, for a positive limit, on page j div limit + 1 at position j mod limit |
| `CourseController.OrEmpty` | Backend/src/models/Course.js:53 | an absent array is stored as empty and a supplied one as given |
| `CourseController.NewCourse` | Backend/src/controllers/course.controller.js:31-34 | a created course carries the parsed values, the title trimmed, the caller as instructor, the pricing defaults for absent keys, draft status and zero counters |
| `CourseController.CreateCourse` | Backend/src/controllers/course.controller.js:11-37 | outside the schema: 400; a taken slug: 409; it succeeds exactly when the body parses, the slug and id are free and the trimmed title is non-empty; on success exactly the new course is appended and returned; every refusal changes nothing |
| `CourseController.CreateKeepsKeysUnique` | Backend/src/controllers/course.controller.js:21-34 | creating a course keeps slugs and ids unique |
| `CourseController.AppendKeepsKeysUnique` | Backend/src/models/Course.js:11-16 | appending a course with a new slug and id keeps keys unique |
| `CourseController.EditableCourse` | Backend/src/controllers/course.controller.js:50-69 | an unknown course: 401; a caller who is neither instructor nor co-instructor: 403; it continues exactly for such a caller, with the course's index |
| `CourseController.MergePricing` | Backend/src/controllers/course.controller.js:93-98 | each pricing key the patch supplies overrides and every other key keeps its stored value |
| `CourseController.MergePricingIdempotent` | Backend/src/controllers/course.controller.js:93-98 | merging the same patch twice equals merging it once |
| `CourseController.MergeEmptyPatch` | Backend/src/controllers/course.controller.js:93-98 | an empty patch keeps the stored pricing |
| `CourseController.SetText` | Backend/src/controllers/course.controller.js:76 | a supplied non-empty string overrides, anything else keeps the stored value |
| `CourseController.Override` | Backend/src/controllers/course.controller.js:75 | a supplied object, array or enumeration value overrides, an absent one keeps the stored value |
| `CourseController.OrNone` | Backend/src/controllers/course.controller.js:82-83 | a supplied optional object becomes the stored value, an absent one leaves it unset |
| `CourseController.SetOptionalText` | Backend/src/controllers/course.controller.js:78 | a supplied non-empty optional string overrides, anything else keeps the stored value |
| `CourseController.PricingUpdate` | Backend/src/controllers/course.controller.js:93-106 | supplied pricing is merged into the stored pricing, absent pricing keeps it |
| `CourseController.ApplyCourseUpdate` | Backend/src/controllers/course.controller.js:71-106 | strings override only when non-empty (the title trimmed); enumerations, media and arrays override whenever supplied; pricing merges key by key; id, slug, instructors, sections and counters never change |
| `CourseController.EmptyUpdateKeepsCourse` | Backend/src/controllers/course.controller.js:71-106 | an update with no keys leaves the course unchanged |
| `CourseController.UpdateCourseDetails` | Backend/src/controllers/course.controller.js:39-124 | a rejected body: 400; then the permission refusals; each changes nothing; otherwise only the addressed course changes, by the update, and is returned |
| `CourseController.UpdateKeepsKeysUnique` | Backend/src/controllers/course.controller.js:117-121 | updating keeps slugs and ids unique |
| `CourseController.UpdateIdempotent` | Backend/src/controllers/course.controller.js:39-124 | sending the same update twice leaves the store as sending it once |
| `CourseController.AddCourseSection` | Backend/src/controllers/course.controller.js:128-167 | a rejected body: 400; then the permission refusals; each changes nothing; otherwise the addressed course's sections are the old ones followed by the new ones in order, and nothing else changes |
| `CourseController.AddSectionsCompose` | Backend/src/controllers/course.controller.js:163 | adding sections in two requests equals adding them together in one |

## Left out

- Password hashing, token signing and verification, and the `validator` predicates (`isEmail`, `isStrongPassword`, `isURL`) are uninterpreted functions. So is the Unicode letter class `\p{L}`. Their libraries are not part of this model.
- `toLowerCase` is modelled on ASCII only, in email normalisation and in `slugify`. Unicode case mapping has no counterpart in Dafny.
- `Number(...)` on text is modelled for whitespace-padded, optionally signed decimal integers. Any other text (decimal points, exponents, `0x`, `Infinity`) reads as NaN. Doubles are modelled as reals, so rounding is not.
- `Math.ceil` over doubles is modelled as exact integer ceiling division, `Math.floor` over `Math.random()` as a real floor.
- `findOne` and `findById` are modelled as the first match in insertion order. This assumes the store returns documents in natural order.
- Time-to-live expiry is taken as exact. The database's background sweeper can keep an expired record for up to a minute; the model treats it as gone at once.
- Concurrency is out of scope: requests are served one at a time. The check-then-insert race on code issuance is not modelled.
- Mongoose validators are not modelled, apart from three: the course title's `required` after trimming, the bio's `maxlength` on profile update, and the unique keys (user id, course id and slug, refresh token), which are modelled as a 500. In particular, the update validators of `updateCourseDetails` (title `maxlength`, a title that trims to empty, description `maxlength`) are not modelled.
- `courseUpdateSchema` and `addCourseSectionSchema` are not exported by `utils/Courses.js`, so the update and section handlers take the schema's verdict as an input.
- The reply envelope (`templates/apiResponse.js`) is not part of this model. Success messages are carried as written at the call sites, and the message is empty where the handler gives none.
- Token generation (`utils/generateToken.js`), the client-address helper (`utils/getIpAddress.js`) and the local refresh-token expiry check (`utils/isTokenExpired.js`) are not part of this model. The tokens, their expiry instants, the address and the expiry verdict are inputs.
- The password-reset flow (`sendUserPasswordResetEmail`, `verifyUserResetPassword`) is out of scope.
- So are `getProfile` and `addCoInstructor`, which has an empty body. So is the upload controller.
- `resendOtp` and `verifyEmail` with no `email` key are not modelled: the address is always a string. So are request fields of a non-string type, and a `null` avatar in a profile update.
- The mail content and transport (nodemailer) are not modelled; only the transport's success is. The Cloudinary configuration is not modelled at all. Passport is modelled only as its lookup of the token's user.
- `AuthMachine.Step`: the contract states only that a refused gated request writes nothing. Every other case is the named handler, and its contract carries the rest.
- `AuthController.Refresh`: the lookup is modelled as the first live session of the decoded user.
- `AuthController.Logout`: the caller's first live session is removed, as `deleteOne` removes the first match. A session kept past expiry is not modelled.
- `Js.ParseInt` is not in the table: its own contract says only that a parsed result saw a digit. What the listings rely on is proved in `Js.ParseIntOfDigits` and `UserController.UndefinedIsNaN`.
- `Js.StringToNumber` is not in the table: it is a definition without a contract of its own. What verification relies on is proved in `Js.DigitStringNumber` and `EmailConfig.StoredCodeReadsBack`.
- `Courses.MatchesSlugRegex` is not in the table: it is the regex matcher, without a contract of its own. What it accepts is proved in `Courses.SlugRunShape` and `Courses.SlugRegexIffShape`.
- `Models.NormalizeEmail` is not in the table: it is a definition without a contract of its own. Its use is stated in `Models.NewUser` and `Models.NormalizeEmailIdempotent`.
- `AuthController.CreateUser`: a mailer failure is answered as if `ApiResponse.error` took `(res, data, message, statusCode, error)`, which is how `Backend/src/controllers/auth.controller.js:66` calls it, so the reply is the mailer's status and message. The call at `Backend/src/middleware/error-handler.js:7` passes `(res, message, statusCode, {stack})` instead. `templates/apiResponse.js` is not part of this model, so which order it takes is not decided here.
- `UserController.ListUsers`: the page count is one field, `pages`. The user listing's reply names it `totalPages` (`Backend/src/controllers/user.controller.js:96`), while the instructor and student listings name it `pages` (lines 124 and 151). The model does not keep the field name.
- `CourseController.UpdateCourseDetails`: the updated course is returned with the instructor and co-instructor ids. The source populates them with the selected fields of each user document (`Backend/src/controllers/course.controller.js:111-114`), and the user documents are not joined into the reply here.
- `CourseController.EditableCourse`: a course id is a natural number, so a malformed `:courseId` cannot be expressed. In the source, `findById` (`Backend/src/controllers/course.controller.js:50` and `:140`) throws a cast error on such an id, and the error handler answers it with 500. Also, the course schema keeps timestamps (`Backend/src/models/Course.js:124`), so an update or a section append also changes `updatedAt`. The model has no timestamps, and "nothing else changes" in `CourseController.UpdateCourseDetails` and `CourseController.AddCourseSection` is about the fields it keeps.
- The course and user admin handlers take the caller as a parameter. The chain in front of them is stated on its own by `AuthMachine.AdminChain`, and is not composed with each handler.

=== FILE: access_gate.dfy ===
/** The per-request access-token gate (middleware/accessTokenAutoRefresh.js).
    Despite its name it never renews anything: it rejects a request without
    a valid access token and otherwise hands on the decoded claims. */
module AccessTokenGate {
  import opened Js
  import opened Http
  import opened Externals

  /** What a request that passes the gate carries on: the decoded claims as
      `req.user` and the bearer `authorization` header for the next stage. */
  datatype Passed = Passed(claims: Claims, authorization: string)

  const MSG_LOGIN := "Please login to continue"
  const MSG_EXPIRED := "TokenExpired"
  const MSG_NOT_VALID := "Token is not valid"

  /** The gate's decision for the `accessToken` cookie. A missing (or empty)
      cookie clears both token cookies and is refused; an expired token is
      refused as `TokenExpired` and any other verification failure as
      `Token is not valid`, both without touching cookies; only a verified
      token continues. Every refusal is a 401. */
  function AccessGate(cookie: Option<string>, verify: string -> JwtOutcome): (d: Decision<Passed>)
    ensures d.Reject? ==> d.status == UNAUTHORIZED
    ensures d.Reject? && d.clearsCookies <==> !Truthy(cookie)
    ensures !Truthy(cookie) ==> d.message == MSG_LOGIN
    ensures Truthy(cookie) && verify(cookie.value).Expired? ==> d == Reject(UNAUTHORIZED, MSG_EXPIRED, false)
    ensures Truthy(cookie) && verify(cookie.value).Invalid? ==> d == Reject(UNAUTHORIZED, MSG_NOT_VALID, false)
    ensures d.Continue? <==> Truthy(cookie) && verify(cookie.value).Verified?
    ensures d.Continue? ==>
      d.value.claims == verify(cookie.value).claims && d.value.authorization == "Bearer " + cookie.value
  {
    if !Truthy(cookie) then Reject(UNAUTHORIZED, MSG_LOGIN, true)
    else match verify(cookie.value)
      case Expired => Reject(UNAUTHORIZED, MSG_EXPIRED, false)
      case Invalid => Reject(UNAUTHORIZED, MSG_NOT_VALID, false)
      case Verified(c) => Continue(Passed(c, "Bearer " + cookie.value))
  }

  /** The cookie effect of a refusal. */
  function RejectCookies(d: Decision<Passed>): (e: CookieEffect)
    requires d.Reject?
    ensures e == ClearTokens || e == KeepCookies
    ensures e == ClearTokens <==> d.clearsCookies
  {
    if d.clearsCookies then ClearTokens else KeepCookies
  }
}

=== FILE: auth_controller.dfy ===
/** The authentication handlers (controllers/auth.controller.js) as pure
    transitions over the three stores: users, email-verification codes and
    refresh-token sessions. Every handler takes the state and its request and
    returns the new state with the reply. Generated ids, salts, random draws,
    the mail outcome, the client's address and the tokens the issuer mints
    are inputs; the hashing, signing and validation libraries come in `lib`. */
module AuthController {
  import opened Js
  import opened Http
  import opened Models
  import opened Store
  import opened Externals
  import opened EmailConfig
  import opened NameValidator

  datatype AuthState = AuthState(users: seq<User>, otps: seq<OtpRecord>, sessions: seq<Session>)

  /** The `user` part of a login reply. */
  datatype UserSummary = UserSummary(id: UserId, email: string, role: Role)

  datatype AuthBody = Created(user: PublicUser) | LoggedIn(tokens: TokenPair, summary: UserSummary)

  datatype Outcome = Outcome(st: AuthState, reply: Reply<AuthBody>)

  /** The filter `{ email }`, cast through the email setters. */
  function WithEmail(email: string): User -> bool {
    (u: User) => u.email == NormalizeEmail(email)
  }

  /** The filter `{ _id }`. */
  function WithId(id: UserId): User -> bool {
    (u: User) => u.id == id
  }

  /** The filter `{ userId }` against the session store at `now`. */
  function LiveSessionOf(uid: UserId, now: nat): Session -> bool {
    (s: Session) => s.userId == uid && SessionLive(s, now)
  }

  /** A live session already holding this token (the token is a unique key). */
  function LiveSessionWithToken(token: string, now: nat): Session -> bool {
    (s: Session) => s.token == token && SessionLive(s, now)
  }

  /** The user-agent header, `"Unknown"` when absent or empty. */
  function AgentOf(header: Option<string>): (ua: string)
    ensures Truthy(header) ==> ua == header.value
    ensures !Truthy(header) ==> ua == "Unknown"
  {
    if Truthy(header) then header.value else "Unknown"
  }

  /** The requesting client's fingerprint: its address and user-agent
      header. */
  datatype Client = Client(ip: string, userAgent: Option<string>)

  const MSG_INVALID_DETAILS := "please provide valid details"
  const MSG_USER_EXISTS := "user already exist"
  const MSG_USER_CREATED := "user created and please verify email"
  const MSG_REGISTER_FIRST := "Please register the user first."
  const MSG_ALREADY_VERIFIED_RESEND := "User is already verified."
  const MSG_RESEND_FAILED := "OTP mail failed"
  const MSG_NO_USER := "User does not exist"
  const MSG_ALREADY_VERIFIED := "User is already verified"
  const MSG_OTP_MISSING := "OTP has expired or not found"
  const MSG_OTP_WRONG := "OTP provided is incorrect"
  const MSG_OTP_VERIFIED := "OTP verified successfully"
  const MSG_BAD_CREDENTIALS := "please provid valid credentials"
  const MSG_WRONG_PASSWORD := "invalid login credentials"
  const MSG_PLEASE_LOGIN := "please login to continue"
  const MSG_FINGERPRINT := "Refresh token IP/User-Agent mismatch. Please login again."
  const MSG_TOKENS_UPDATED := "tokens updated successfully"
  const MSG_LOGGED_OUT := "user logout successfully"
  const MSG_INVALID_CREDENTIALS := "invalid credentials"
  const MSG_PASSWORD_CHANGED := "password changed successfully"

  /** Seven days in milliseconds: the lifetime of a session record. */
  const SESSION_LIFETIME_MS := 7 * 24 * 60 * 60 * 1000

  // ---------------------------------------------------------------------
  // createUser

  datatype RegisterBody = RegisterBody(
    firstName: Option<string>, lastName: Option<string>, email: Option<string>, password: Option<string>)

  predicate RegisterFieldsPresent(b: RegisterBody) {
    Truthy(b.firstName) && Truthy(b.lastName) && Truthy(b.email) && Truthy(b.password)
  }

  /** All four fields present, a syntactically valid email, a strong
      password and two valid names. */
  predicate RegisterFieldsValid(b: RegisterBody, lib: Lib) {
    && RegisterFieldsPresent(b)
    && lib.isEmail(b.email.value)
    && lib.isStrongPassword(b.password.value)
    && ValidateName(b.firstName.value, lib.isLetter)
    && ValidateName(b.lastName.value, lib.isLetter)
  }

  /** The document registration writes: only the hash of the password. */
  function RegisteredUser(b: RegisterBody, id: UserId, salt: nat, lib: Lib): (u: User)
    requires RegisterFieldsPresent(b)
    ensures u.passwordHash == lib.hash(b.password.value, salt)
    ensures u.id == id && u.email == NormalizeEmail(b.email.value) && !u.isEmailVerified
  {
    NewUser(id, b.email.value, lib.hash(b.password.value, salt), b.firstName.value, b.lastName.value)
  }

  /** The request passes validation, its email is free and the generated id
      is unused: the case in which a user document is written. */
  predicate Registers(st: AuthState, b: RegisterBody, id: UserId, lib: Lib) {
    && RegisterFieldsValid(b, lib)
    && FindFirst(st.users, WithEmail(b.email.value)).None?
    && FindFirst(st.users, WithId(id)).None?
  }

  /** `createUser`. Missing or invalid fields: 400; a taken email: 409; both
      leave every store as it was. Otherwise the user is appended, holding
      only the password's hash, and the code mailer runs; the user stays
      created whatever the mailer reports, and the reply is the mailer's
      failure or a 200 carrying the new user without its password. */
  function CreateUser(st: AuthState, b: RegisterBody, id: UserId, salt: nat, now: nat, draw: Draw, mailOk: bool, lib: Lib): (out: Outcome)
    ensures !RegisterFieldsValid(b, lib) ==> out == Outcome(st, Error(BAD_REQUEST, MSG_INVALID_DETAILS))
    ensures RegisterFieldsValid(b, lib) && FindFirst(st.users, WithEmail(b.email.value)).Some? ==>
      out == Outcome(st, Error(CONFLICT, MSG_USER_EXISTS))
    ensures out.reply.status == BAD_REQUEST <==> !RegisterFieldsValid(b, lib)
    ensures out.st.sessions == st.sessions
    ensures out.st != st ==> Registers(st, b, id, lib)
    ensures Registers(st, b, id, lib) ==>
      var sent := SendOtpVerificationMail(st.otps, RegisteredUser(b, id, salt, lib), now, draw, mailOk);
      && out.st.users == st.users + [RegisteredUser(b, id, salt, lib)]
      && out.st.otps == sent.otps
      && (sent.result.success ==> out.reply.status == OK && out.reply.message == MSG_USER_CREATED)
      && (!sent.result.success ==>
            && out.reply.status == sent.result.statusCode
            && out.reply.message == sent.result.message
            && out.reply.body.None?)
    ensures out.reply.status == OK ==>
      Registers(st, b, id, lib) && out.reply.body == Some(Created(ToPublic(RegisteredUser(b, id, salt, lib))))
  {
    if !RegisterFieldsPresent(b) then Outcome(st, Error(BAD_REQUEST, MSG_INVALID_DETAILS))
    else if !lib.isEmail(b.email.value) || !lib.isStrongPassword(b.password.value)
         || !ValidateName(b.firstName.value, lib.isLetter) || !ValidateName(b.lastName.value, lib.isLetter)
    then Outcome(st, Error(BAD_REQUEST, MSG_INVALID_DETAILS))
    else if FindFirst(st.users, WithEmail(b.email.value)).Some? then Outcome(st, Error(CONFLICT, MSG_USER_EXISTS))
    else if FindFirst(st.users, WithId(id)).Some? then Outcome(st, Fault())
    else
      var u := RegisteredUser(b, id, salt, lib);
      var sent := SendOtpVerificationMail(st.otps, u, now, draw, mailOk);
      var st' := AuthState(st.users + [u], sent.otps, st.sessions);
      if !sent.result.success then
        Outcome(st', Reply(sent.result.statusCode, sent.result.message, KeepCookies, None))
      else
        Outcome(st', Reply(OK, MSG_USER_CREATED, KeepCookies, Some(Created(ToPublic(u)))))
  }

  // ---------------------------------------------------------------------
  // resendOtp

  /** `resendOtp`. An unknown email: 404; a verified user: 400; both change
      nothing. Otherwise the code mailer runs; any failure it reports (429
      or 500 alike) is answered with 400 and its message, and a code it
      stored stays. The fallback text for a failure without a message is
      never used, since every failure the mailer reports carries one. */
  function ResendOtp(st: AuthState, email: string, now: nat, draw: Draw, mailOk: bool): (out: Outcome)
    ensures FindFirst(st.users, WithEmail(email)).None? ==> out == Outcome(st, Error(NOT_FOUND, MSG_REGISTER_FIRST))
    ensures out.st.users == st.users && out.st.sessions == st.sessions
    ensures out.reply.status in {OK, BAD_REQUEST, NOT_FOUND}
    ensures match FindFirst(st.users, WithEmail(email))
      case None => true
      case Some(i) =>
        if st.users[i].isEmailVerified then out == Outcome(st, Error(BAD_REQUEST, MSG_ALREADY_VERIFIED_RESEND))
        else
          var sent := SendOtpVerificationMail(st.otps, st.users[i], now, draw, mailOk);
          && out.st.otps == sent.otps
          && (out.reply.status == OK <==> sent.result.success)
          && (sent.result.success ==> out.reply == Reply(OK, MSG_OTP_SENT, KeepCookies, None))
          && (!sent.result.success ==> out.reply == Error(BAD_REQUEST, sent.result.message))
  {
    match FindFirst(st.users, WithEmail(email))
    case None => Outcome(st, Error(NOT_FOUND, MSG_REGISTER_FIRST))
    case Some(i) =>
      var u := st.users[i];
      if u.isEmailVerified then Outcome(st, Error(BAD_REQUEST, MSG_ALREADY_VERIFIED_RESEND))
      else
        var sent := SendOtpVerificationMail(st.otps, u, now, draw, mailOk);
        var st' := st.(otps := sent.otps);
        if !sent.result.success then
          Outcome(st', Error(BAD_REQUEST, if sent.result.message != "" then sent.result.message else MSG_RESEND_FAILED))
        else Outcome(st', Reply(OK, MSG_OTP_SENT, KeepCookies, None))
  }

  // ---------------------------------------------------------------------
  // verifyEmail

  /** The submitted code matches the stored one when both convert to the
      same number (`Number(otp) === Number(record.otp)`). */
  predicate CodeMatches(submitted: JsValue, stored: string) {
    StrictEquals(NumberOf(submitted), StringToNumber(stored))
  }

  /** `verifyEmail`. The checks run in this order: unknown user 404,
      already verified 400, no live code 404, wrong code 400; every failure
      leaves all stores as they were. On success the user, and only that
      user, becomes verified, exactly the matched code record is removed and
      the sessions are untouched. */
  function VerifyEmail(st: AuthState, email: string, otp: JsValue, now: nat): (out: Outcome)
    ensures out.reply.status != OK ==> out.st == st
    ensures out.st.sessions == st.sessions
    ensures FindFirst(st.users, WithEmail(email)).None? ==> out.reply == Error(NOT_FOUND, MSG_NO_USER)
    ensures match FindFirst(st.users, WithEmail(email))
      case None => true
      case Some(i) =>
        var u := st.users[i];
        if u.isEmailVerified then out.reply == Error(BAD_REQUEST, MSG_ALREADY_VERIFIED)
        else match FindFirst(st.otps, LiveOtpOf(u.id, now))
          case None => out.reply == Error(NOT_FOUND, MSG_OTP_MISSING)
          case Some(k) =>
            if !CodeMatches(otp, st.otps[k].otp) then out.reply == Error(BAD_REQUEST, MSG_OTP_WRONG)
            else
              && out.reply == Reply(OK, MSG_OTP_VERIFIED, KeepCookies, None)
              && |out.st.users| == |st.users|
              && out.st.users[i] == u.(isEmailVerified := true)
              && (forall j :: 0 <= j < |st.users| && j != i ==> out.st.users[j] == st.users[j])
              && out.st.otps == RemoveAt(st.otps, k)
  {
    match FindFirst(st.users, WithEmail(email))
    case None => Outcome(st, Error(NOT_FOUND, MSG_NO_USER))
    case Some(i) =>
      var u := st.users[i];
      if u.isEmailVerified then Outcome(st, Error(BAD_REQUEST, MSG_ALREADY_VERIFIED))
      else match FindFirst(st.otps, LiveOtpOf(u.id, now))
        case None => Outcome(st, Error(NOT_FOUND, MSG_OTP_MISSING))
        case Some(k) =>
          if !CodeMatches(otp, st.otps[k].otp) then Outcome(st, Error(BAD_REQUEST, MSG_OTP_WRONG))
          else
            var st' := AuthState(st.users[i := u.(isEmailVerified := true)], RemoveAt(st.otps, k), st.sessions);
            Outcome(st', Reply(OK, MSG_OTP_VERIFIED, KeepCookies, None))
  }

  // ---------------------------------------------------------------------
  // loginUser

  /** The session record a successful login writes. */
  function NewSession(u: User, tokens: TokenPair, client: Client, now: nat): (s: Session)
    ensures s.userId == u.id && s.token == tokens.refreshToken
    ensures s.ipAddress == client.ip && s.userAgent == AgentOf(client.userAgent)
    ensures s.expiresAt == now + SESSION_LIFETIME_MS && SessionLive(s, now)
  {
    Session(u.id, tokens.refreshToken, client.ip, AgentOf(client.userAgent), now, now + SESSION_LIFETIME_MS)
  }

  /** `loginUser`. A missing email or password, or an unknown email: 400; a
      wrong password: 404; none of these writes anything. The verification
      flag is never looked at. A successful login appends exactly one
      session record and sets both cookies. */
  function Login(st: AuthState, email: Option<string>, password: Option<string>, client: Client, tokens: TokenPair, now: nat, lib: Lib): (out: Outcome)
    ensures out.st.users == st.users && out.st.otps == st.otps
    ensures out.reply.status != OK ==> out.st == st
    ensures !Truthy(email) || !Truthy(password) ==> out.reply == Error(BAD_REQUEST, MSG_BAD_CREDENTIALS)
    ensures Truthy(email) && Truthy(password) ==>
      match FindFirst(st.users, WithEmail(email.value))
      case None => out.reply == Error(BAD_REQUEST, MSG_BAD_CREDENTIALS)
      case Some(i) =>
        var u := st.users[i];
        if !lib.compare(password.value, u.passwordHash) then out.reply == Error(NOT_FOUND, MSG_WRONG_PASSWORD)
        else if FindFirst(st.sessions, LiveSessionWithToken(tokens.refreshToken, now)).Some? then
          out.reply.status == INTERNAL_SERVER_ERROR
        else
          && out.st.sessions == st.sessions + [NewSession(u, tokens, client, now)]
          && out.reply.status == OK
          && out.reply.cookies == SetTokens(tokens)
          && out.reply.body == Some(LoggedIn(tokens, UserSummary(u.id, u.email, u.role)))
  {
    if !Truthy(email) || !Truthy(password) then Outcome(st, Error(BAD_REQUEST, MSG_BAD_CREDENTIALS))
    else match FindFirst(st.users, WithEmail(email.value))
      case None => Outcome(st, Error(BAD_REQUEST, MSG_BAD_CREDENTIALS))
      case Some(i) =>
        var u := st.users[i];
        if !lib.compare(password.value, u.passwordHash) then Outcome(st, Error(NOT_FOUND, MSG_WRONG_PASSWORD))
        else if FindFirst(st.sessions, LiveSessionWithToken(tokens.refreshToken, now)).Some? then
          Outcome(st, Fault())
        else
          var st' := st.(sessions := st.sessions + [NewSession(u, tokens, client, now)]);
          Outcome(st', Reply(OK, "", SetTokens(tokens), Some(LoggedIn(tokens, UserSummary(u.id, u.email, u.role)))))
  }

  // ---------------------------------------------------------------------
  // refreshToken

  /** `refreshToken`. A missing, locally expired or unverifiable cookie, no
      live session for the decoded id, or no user with that id: 401 with
      every store as it was. A session whose fingerprint differs from the
      client's is deleted, and the reply is 401. On a match the reply sets
      the freshly minted cookies and the session store is left as it was:
      the new refresh token is not recorded. */
  function Refresh(st: AuthState, cookie: Option<string>, client: Client, tokens: TokenPair, now: nat, lib: Lib): (out: Outcome)
    ensures out.st.users == st.users && out.st.otps == st.otps
    ensures out.reply.status in {OK, UNAUTHORIZED}
    ensures out.reply.status == OK ==> out.st == st && out.reply.cookies == SetTokens(tokens)
    ensures out.reply.status != OK ==> out.reply.cookies == KeepCookies
    ensures !Truthy(cookie) || lib.isTokenExpired(cookie.value) || !lib.verifyRefresh(cookie.value).Verified? ==>
      out == Outcome(st, Error(UNAUTHORIZED, MSG_PLEASE_LOGIN))
    ensures Truthy(cookie) && !lib.isTokenExpired(cookie.value) && lib.verifyRefresh(cookie.value).Verified? ==>
      var id := lib.verifyRefresh(cookie.value).claims.id;
      match FindFirst(st.sessions, LiveSessionOf(id, now))
      case None => out == Outcome(st, Error(UNAUTHORIZED, MSG_PLEASE_LOGIN))
      case Some(k) =>
        var s := st.sessions[k];
        if s.ipAddress != client.ip || s.userAgent != AgentOf(client.userAgent) then
          out == Outcome(st.(sessions := RemoveAt(st.sessions, k)), Error(UNAUTHORIZED, MSG_FINGERPRINT))
        else
          && (out.reply.status == OK <==> FindFirst(st.users, WithId(id)).Some?)
          && out.st == st
          && (FindFirst(st.users, WithId(id)).None? ==> out.reply == Error(UNAUTHORIZED, MSG_PLEASE_LOGIN))
          && (FindFirst(st.users, WithId(id)).Some? ==> out.reply == Reply(OK, MSG_TOKENS_UPDATED, SetTokens(tokens), None))
  {
    if !Truthy(cookie) || lib.isTokenExpired(cookie.value) then Outcome(st, Error(UNAUTHORIZED, MSG_PLEASE_LOGIN))
    else match lib.verifyRefresh(cookie.value)
      case Expired => Outcome(st, Error(UNAUTHORIZED, MSG_PLEASE_LOGIN))
      case Invalid => Outcome(st, Error(UNAUTHORIZED, MSG_PLEASE_LOGIN))
      case Verified(claims) =>
        match FindFirst(st.sessions, LiveSessionOf(claims.id, now))
        case None => Outcome(st, Error(UNAUTHORIZED, MSG_PLEASE_LOGIN))
        case Some(k) =>
          var s := st.sessions[k];
          if s.ipAddress != client.ip || s.userAgent != AgentOf(client.userAgent) then
            Outcome(st.(sessions := RemoveAt(st.sessions, k)), Error(UNAUTHORIZED, MSG_FINGERPRINT))
          else if FindFirst(st.users, WithId(claims.id)).None? then
            Outcome(st, Error(UNAUTHORIZED, MSG_PLEASE_LOGIN))
          else
            Outcome(st, Reply(OK, MSG_TOKENS_UPDATED, SetTokens(tokens), None))
  }

  // ---------------------------------------------------------------------
  // logoutUser

  /** `logoutUser` for the authenticated caller: the first live session of
      the caller is deleted (if there is one), no other record is touched,
      and both cookies are cleared. */
  function Logout(st: AuthState, caller: UserId, now: nat): (out: Outcome)
    ensures out.st.users == st.users && out.st.otps == st.otps
    ensures out.reply.status == OK && out.reply.cookies == ClearTokens
    ensures match FindFirst(st.sessions, LiveSessionOf(caller, now))
      case None => out.st.sessions == st.sessions
      case Some(k) =>
        && st.sessions[k].userId == caller
        && out.st.sessions == RemoveAt(st.sessions, k)
        && multiset(out.st.sessions) + multiset{st.sessions[k]} == multiset(st.sessions)
  {
    var sessions' := match FindFirst(st.sessions, LiveSessionOf(caller, now))
      case None => st.sessions
      case Some(k) => RemoveAt(st.sessions, k);
    Outcome(st.(sessions := sessions'), Reply(OK, MSG_LOGGED_OUT, ClearTokens, None))
  }

  // ---------------------------------------------------------------------
  // changePassword

  /** `changePassword` for the authenticated caller. A missing field or a
      confirmation that differs: 400, nothing written. Otherwise the
      caller's password hash, and nothing else, is replaced with the hash of
      the new password; no strength check is applied here, and the reply is
      200 even when no user has the caller's id. */
  function ChangePassword(st: AuthState, caller: UserId, password: Option<string>, confirmation: Option<string>, salt: nat, lib: Lib): (out: Outcome)
    ensures out.st.otps == st.otps && out.st.sessions == st.sessions
    ensures !Truthy(password) || !Truthy(confirmation) || password.value != confirmation.value ==>
      out == Outcome(st, Error(BAD_REQUEST, MSG_INVALID_CREDENTIALS))
    ensures Truthy(password) && Truthy(confirmation) && password.value == confirmation.value ==>
      && out.reply == Reply(OK, MSG_PASSWORD_CHANGED, KeepCookies, None)
      && |out.st.users| == |st.users|
      && match FindFirst(st.users, WithId(caller))
         case None => out.st.users == st.users
         case Some(i) =>
           && out.st.users[i] == st.users[i].(passwordHash := lib.hash(password.value, salt))
           && forall j :: 0 <= j < |st.users| && j != i ==> out.st.users[j] == st.users[j]
  {
    if !Truthy(password) || !Truthy(confirmation) then Outcome(st, Error(BAD_REQUEST, MSG_INVALID_CREDENTIALS))
    else if password.value != confirmation.value then Outcome(st, Error(BAD_REQUEST, MSG_INVALID_CREDENTIALS))
    else
      var users' := match FindFirst(st.users, WithId(caller))
        case None => st.users
        case Some(i) => st.users[i := st.users[i].(passwordHash := lib.hash(password.value, salt))];
      Outcome(st.(users := users'), Reply(OK, MSG_PASSWORD_CHANGED, KeepCookies, None))
  }
}

=== FILE: auth_machine.dfy ===
/** The authentication handlers composed into one state machine over the
    user, code and session stores, as the routes (routes/users/auth.route.js)
    reach them: registration, code resending, verification, login and token
    refresh directly; logout and password change behind the access-token
    gate and the passport lookup of the token's user. Requests are strictly
    sequential and each carries the instant it is served at. */
module AuthMachine {
  import opened Js
  import opened Http
  import opened Models
  import opened Store
  import opened Externals
  import opened EmailConfig
  import opened AccessTokenGate
  import opened AuthController
  import opened AdminGate

  /** One request with the inputs that do not come from the stores. */
  datatype Request =
    | Register(body: RegisterBody, id: UserId, salt: nat, draw: Draw, mailOk: bool)
    | Resend(address: string, draw: Draw, mailOk: bool)
    | Verify(account: string, otp: JsValue)
    | LogIn(email: Option<string>, password: Option<string>, client: Client, tokens: TokenPair)
    | RefreshSession(cookie: Option<string>, client: Client, tokens: TokenPair)
    | LogOut(accessCookie: Option<string>)
    | NewPassword(accessCookie: Option<string>, password: Option<string>, confirmation: Option<string>, salt: nat)

  /** passport-jwt's refusal when the token's user no longer exists. */
  const MSG_UNAUTHORIZED := "Unauthorized"

  /** The chain in front of logout and password change: the access-token
      gate, then the lookup of the user the token names. */
  function Authenticate(users: seq<User>, cookie: Option<string>, lib: Lib): (d: Decision<UserId>)
    ensures AccessGate(cookie, lib.verifyAccess).Reject? ==>
      var g := AccessGate(cookie, lib.verifyAccess);
      d == Reject(g.status, g.message, g.clearsCookies)
    ensures d.Reject? ==> d.status == UNAUTHORIZED
    ensures d.Continue? <==>
      AccessGate(cookie, lib.verifyAccess).Continue? &&
      FindFirst(users, WithId(AccessGate(cookie, lib.verifyAccess).value.claims.id)).Some?
    ensures d.Continue? ==>
      Truthy(cookie) && lib.verifyAccess(cookie.value) == Verified(Claims(d.value))
  {
    match AccessGate(cookie, lib.verifyAccess)
    case Reject(code, msg, clears) => Reject(code, msg, clears)
    case Continue(passed) =>
      if FindFirst(users, WithId(passed.claims.id)).None? then Reject(UNAUTHORIZED, MSG_UNAUTHORIZED, false)
      else Continue(passed.claims.id)
  }

  /** The chain in front of the admin routes (routes/admin/course.route.js
      and routes/admin/user.route.js): the access-token gate, the passport
      lookup, then the role gate. The role gate always receives a user,
      because passport refuses a missing one itself, so its own 401 never
      fires: the chain continues with the stored user exactly for an
      authenticated admin, refuses an authenticated non-admin with 403, and
      passes every earlier refusal on unchanged. */
  function AdminChain(users: seq<User>, cookie: Option<string>, lib: Lib): (d: Decision<User>)
    ensures Authenticate(users, cookie, lib).Reject? ==>
      var a := Authenticate(users, cookie, lib);
      d == Reject(a.status, a.message, a.clearsCookies)
    ensures Authenticate(users, cookie, lib).Continue? ==>
      var i := FindFirst(users, WithId(Authenticate(users, cookie, lib).value));
      && i.Some?
      && (users[i.value].role == Admin ==> d == Continue(users[i.value]))
      && (users[i.value].role != Admin ==> d == Reject(FORBIDDEN, MSG_ADMINS_ONLY, false))
    ensures d.Continue? ==> d.value in users && d.value.role == Admin
    ensures d.Reject? ==> d.status == UNAUTHORIZED || d.status == FORBIDDEN
  {
    match Authenticate(users, cookie, lib)
    case Reject(code, msg, clears) => Reject(code, msg, clears)
    case Continue(id) =>
      match FindFirst(users, WithId(id))
      case None => Reject(UNAUTHORIZED, MSG_UNAUTHORIZED, false)
      case Some(i) => IsAdmin(Some(users[i]))
  }

  /** A refusal by the chain, as a reply. */
  function Refusal(status: int, message: string, clears: bool): (r: Reply<AuthBody>)
    ensures r.status == status && r.message == message && r.body.None?
    ensures r.cookies == (if clears then ClearTokens else KeepCookies)
  {
    Reply(status, message, if clears then ClearTokens else KeepCookies, None)
  }

  /** Serving one request at instant `now`. A request the chain refuses
      changes nothing. */
  function Step(st: AuthState, req: Request, now: nat, lib: Lib): (out: Outcome)
    ensures req.LogOut? || req.NewPassword? ==>
      (Authenticate(st.users, req.accessCookie, lib).Reject? ==> out.st == st && out.reply.status == UNAUTHORIZED)
  {
    match req
    case Register(b, id, salt, draw, mailOk) => CreateUser(st, b, id, salt, now, draw, mailOk, lib)
    case Resend(email, draw, mailOk) => ResendOtp(st, email, now, draw, mailOk)
    case Verify(email, otp) => VerifyEmail(st, email, otp, now)
    case LogIn(email, password, client, tokens) => Login(st, email, password, client, tokens, now, lib)
    case RefreshSession(cookie, client, tokens) => Refresh(st, cookie, client, tokens, now, lib)
    case LogOut(cookie) =>
      (match Authenticate(st.users, cookie, lib)
       case Reject(code, msg, clears) => Outcome(st, Refusal(code, msg, clears))
       case Continue(caller) => Logout(st, caller, now))
    case NewPassword(cookie, password, confirmation, salt) =>
      (match Authenticate(st.users, cookie, lib)
       case Reject(code, msg, clears) => Outcome(st, Refusal(code, msg, clears))
       case Continue(caller) => ChangePassword(st, caller, password, confirmation, salt, lib))
  }

  // ---------------------------------------------------------------------
  // Invariant

  /** No two users share an id or an email. */
  ghost predicate UsersKeyed(users: seq<User>) {
    forall i, j :: 0 <= i < j < |users| ==> users[i].id != users[j].id && users[i].email != users[j].email
  }

  ghost predicate KnownUser(users: seq<User>, id: UserId) {
    exists i :: 0 <= i < |users| && users[i].id == id
  }

  /** Every code record belongs to a registered user. */
  ghost predicate CodesOwned(st: AuthState) {
    forall k :: 0 <= k < |st.otps| ==> KnownUser(st.users, st.otps[k].userId)
  }

  /** What every reachable state satisfies at the instant it is reached. */
  ghost predicate Inv(st: AuthState, now: nat) {
    UsersKeyed(st.users) && CodesOwned(st) && AtMostOneLiveOtp(st.otps, now)
  }

  /** The empty stores satisfy the invariant. */
  lemma InitialInv(now: nat)
    ensures Inv(AuthState([], [], []), now)
  {
  }

  /** Time passing keeps the invariant: codes only ever stop being live. */
  lemma InvLater(st: AuthState, now: nat, later: nat)
    requires Inv(st, now) && now <= later
    ensures Inv(st, later)
  {
    forall i, j | 0 <= i < j < |st.otps| && OtpLive(st.otps[i], later) && OtpLive(st.otps[j], later)
      ensures st.otps[i].userId != st.otps[j].userId
    {
      assert OtpLive(st.otps[i], now) && OtpLive(st.otps[j], now);
    }
  }

  /** Users changed field by field, never in id or email, and never added or
      removed. */
  ghost predicate SameKeys(users: seq<User>, users': seq<User>) {
    |users'| == |users| &&
    forall j :: 0 <= j < |users| ==> users'[j].id == users[j].id && users'[j].email == users[j].email
  }

  lemma SameKeysKeepInv(st: AuthState, users': seq<User>, now: nat)
    requires Inv(st, now) && SameKeys(st.users, users')
    ensures Inv(st.(users := users'), now)
  {
    forall k | 0 <= k < |st.otps| ensures KnownUser(users', st.otps[k].userId) {
      var i :| 0 <= i < |st.users| && st.users[i].id == st.otps[k].userId;
      assert users'[i].id == st.otps[k].userId;
    }
  }

  /** Removing a code record keeps the invariant. */
  lemma RemoveCodeKeepsInv(st: AuthState, k: nat, now: nat)
    requires Inv(st, now) && k < |st.otps|
    ensures Inv(st.(otps := RemoveAt(st.otps, k)), now)
  {
    var r := RemoveAt(st.otps, k);
    forall m | 0 <= m < |r| ensures KnownUser(st.users, r[m].userId) {
      if m < k { assert r[m] == st.otps[m]; } else { assert r[m] == st.otps[m + 1]; }
    }
    forall a, b | 0 <= a < b < |r| && OtpLive(r[a], now) && OtpLive(r[b], now)
      ensures r[a].userId != r[b].userId
    {
      var a' := if a < k then a else a + 1;
      var b' := if b < k then b else b + 1;
      assert r[a] == st.otps[a'] && r[b] == st.otps[b'] && a' < b';
    }
  }

  /** Issuing a code to a registered user keeps the invariant. */
  lemma SendKeepsInv(st: AuthState, i: nat, now: nat, draw: Draw, mailOk: bool)
    requires Inv(st, now) && i < |st.users|
    ensures Inv(st.(otps := SendOtpVerificationMail(st.otps, st.users[i], now, draw, mailOk).otps), now)
  {
    var sent := SendOtpVerificationMail(st.otps, st.users[i], now, draw, mailOk);
    SendKeepsOneLiveOtp(st.otps, st.users[i], now, draw, mailOk);
    forall m | 0 <= m < |sent.otps| ensures KnownUser(st.users, sent.otps[m].userId) {
      if m < |st.otps| {
        assert sent.otps[m] == sent.otps[..|st.otps|][m];
      } else {
        assert sent.otps[m].userId == st.users[i].id;
      }
    }
  }

  /** Adding a user whose id and email are both new keeps the invariant. */
  lemma AddUserKeepsInv(st: AuthState, u: User, now: nat)
    requires Inv(st, now)
    requires forall j :: 0 <= j < |st.users| ==> st.users[j].id != u.id && st.users[j].email != u.email
    ensures Inv(st.(users := st.users + [u]), now)
  {
    var users' := st.users + [u];
    forall i, j | 0 <= i < j < |users'| ensures users'[i].id != users'[j].id && users'[i].email != users'[j].email {
      assert users'[i] == st.users[i];
      if j < |st.users| { assert users'[j] == st.users[j]; }
    }
    forall k | 0 <= k < |st.otps| ensures KnownUser(users', st.otps[k].userId) {
      var i :| 0 <= i < |st.users| && st.users[i].id == st.otps[k].userId;
      assert users'[i] == st.users[i];
    }
  }

  /** A successful registration keeps the invariant: the new user's id and
      email are both new, and the code it may receive belongs to it. */
  lemma RegisterKeepsInv(st: AuthState, b: RegisterBody, id: UserId, salt: nat, now: nat, draw: Draw, mailOk: bool, lib: Lib)
    requires Inv(st, now)
    ensures Inv(CreateUser(st, b, id, salt, now, draw, mailOk, lib).st, now)
  {
    var out := CreateUser(st, b, id, salt, now, draw, mailOk, lib);
    if out.st != st {
      var u := RegisteredUser(b, id, salt, lib);
      forall j | 0 <= j < |st.users| ensures st.users[j].id != u.id && st.users[j].email != u.email {
        assert !WithId(id)(st.users[j]);
        assert !WithEmail(b.email.value)(st.users[j]);
      }
      AddUserKeepsInv(st, u, now);
      var mid := st.(users := st.users + [u]);
      assert mid.users[|st.users|] == u;
      SendKeepsInv(mid, |st.users|, now, draw, mailOk);
      assert out.st == mid.(otps := SendOtpVerificationMail(mid.otps, mid.users[|st.users|], now, draw, mailOk).otps);
    }
  }

  /** Resending a code keeps the invariant. */
  lemma ResendKeepsInv(st: AuthState, email: string, now: nat, draw: Draw, mailOk: bool)
    requires Inv(st, now)
    ensures Inv(ResendOtp(st, email, now, draw, mailOk).st, now)
  {
    match FindFirst(st.users, WithEmail(email)) {
      case None =>
      case Some(i) =>
        if !st.users[i].isEmailVerified {
          SendKeepsInv(st, i, now, draw, mailOk);
          assert ResendOtp(st, email, now, draw, mailOk).st
            == st.(otps := SendOtpVerificationMail(st.otps, st.users[i], now, draw, mailOk).otps);
        }
    }
  }

  /** Verifying an email keeps the invariant: it flips one flag and deletes
      one code. */
  lemma VerifyKeepsInv(st: AuthState, email: string, otp: JsValue, now: nat)
    requires Inv(st, now)
    ensures Inv(VerifyEmail(st, email, otp, now).st, now)
  {
    var out := VerifyEmail(st, email, otp, now);
    if out.reply.status == OK {
      var i := FindFirst(st.users, WithEmail(email)).value;
      var k := FindFirst(st.otps, LiveOtpOf(st.users[i].id, now)).value;
      RemoveCodeKeepsInv(st, k, now);
      var mid := st.(otps := RemoveAt(st.otps, k));
      SameKeysKeepInv(mid, out.st.users, now);
      assert out.st == mid.(users := out.st.users);
    }
  }

  /** Every request keeps the invariant. */
  lemma StepKeepsInv(st: AuthState, req: Request, now: nat, lib: Lib)
    requires Inv(st, now)
    ensures Inv(Step(st, req, now, lib).st, now)
  {
    var out := Step(st, req, now, lib);
    match req
    case Register(b, id, salt, draw, mailOk) =>
      RegisterKeepsInv(st, b, id, salt, now, draw, mailOk, lib);
    case Resend(email, draw, mailOk) =>
      ResendKeepsInv(st, email, now, draw, mailOk);
    case Verify(email, otp) =>
      VerifyKeepsInv(st, email, otp, now);
    case LogIn(email, password, client, tokens) =>
      assert out.st == st.(sessions := out.st.sessions);
    case RefreshSession(cookie, client, tokens) =>
      assert out.st == st.(sessions := out.st.sessions);
    case LogOut(cookie) =>
      assert out.st == st.(sessions := out.st.sessions);
    case NewPassword(cookie, password, confirmation, salt) =>
      SameKeysKeepInv(st, out.st.users, now);
      assert out.st == st.(users := out.st.users);
  }

  // ---------------------------------------------------------------------
  // Runs

  /** A request stamped with the instant it is served at. */
  datatype Timed = Timed(at: nat, req: Request)

  /** The instants of a trace never go backwards and start no earlier than
      `start`. */
  ghost predicate Ordered(trace: seq<Timed>, start: nat) {
    (forall i :: 0 <= i < |trace| ==> start <= trace[i].at) &&
    (forall i, j :: 0 <= i < j < |trace| ==> trace[i].at <= trace[j].at)
  }

  /** The stores after serving a trace, one request after another. */
  function Run(st: AuthState, trace: seq<Timed>, lib: Lib): AuthState
    decreases |trace|
  {
    if trace == [] then st else Run(Step(st, trace[0].req, trace[0].at, lib).st, trace[1..], lib)
  }

  function LastInstant(trace: seq<Timed>, start: nat): nat {
    if trace == [] then start else trace[|trace| - 1].at
  }

  /** Every state a sequential run reaches satisfies the invariant. */
  lemma {:induction false} RunKeepsInv(st: AuthState, trace: seq<Timed>, start: nat, lib: Lib)
    requires Inv(st, start) && Ordered(trace, start)
    ensures Inv(Run(st, trace, lib), LastInstant(trace, start))
    decreases |trace|
  {
    if trace != [] {
      var t := trace[0].at;
      InvLater(st, start, t);
      StepKeepsInv(st, trace[0].req, t, lib);
      var rest := trace[1..];
      assert Ordered(rest, t) by {
        forall i | 0 <= i < |rest| ensures t <= rest[i].at {
          assert rest[i] == trace[i + 1];
        }
        forall i, j | 0 <= i < j < |rest| ensures rest[i].at <= rest[j].at {
          assert rest[i] == trace[i + 1] && rest[j] == trace[j + 1];
        }
      }
      RunKeepsInv(Step(st, trace[0].req, t, lib).st, rest, t, lib);
      if rest != [] {
        assert rest[|rest| - 1] == trace[|trace| - 1];
      }
    }
  }

  // ---------------------------------------------------------------------
  // Behaviours

  /** No record names a user that is not registered; in particular a fresh
      id has no code. */
  lemma UnknownUserHasNoCode(st: AuthState, id: UserId, now: nat)
    requires Inv(st, now) && FindFirst(st.users, WithId(id)).None?
    ensures forall k :: 0 <= k < |st.otps| ==> st.otps[k].userId != id
  {
    forall k | 0 <= k < |st.otps| ensures st.otps[k].userId != id {
      assert KnownUser(st.users, st.otps[k].userId);
      var i :| 0 <= i < |st.users| && st.users[i].id == st.otps[k].userId;
      assert !WithId(id)(st.users[i]);
    }
  }

  /** A registration that writes a user is never throttled: the user is new,
      so it has no live code, and the reply is 200 when the mail goes out
      and 500 when it does not. */
  lemma RegisterNeverThrottled(st: AuthState, b: RegisterBody, id: UserId, salt: nat, now: nat, draw: Draw, mailOk: bool, lib: Lib)
    requires Inv(st, now) && Registers(st, b, id, lib)
    ensures var out := CreateUser(st, b, id, salt, now, draw, mailOk, lib);
      out.reply.status == (if mailOk then OK else INTERNAL_SERVER_ERROR)
  {
    UnknownUserHasNoCode(st, id, now);
    var u := RegisteredUser(b, id, salt, lib);
    assert FindFirst(st.otps, LiveOtpOf(u.id, now)).None?;
  }

  /** Registering and then, within the code's lifetime, submitting the drawn
      code (as a number) verifies the new user and consumes its code. */
  lemma RegisterThenVerify(st: AuthState, b: RegisterBody, id: UserId, salt: nat, now: nat, draw: Draw, mailOk: bool, lib: Lib, later: nat)
    requires Inv(st, now) && Registers(st, b, id, lib)
    requires now <= later < now + OTP_TTL_MS
    ensures var registered := CreateUser(st, b, id, salt, now, draw, mailOk, lib).st;
      var verified := VerifyEmail(registered, b.email.value, Number(OtpCode(draw) as real), later);
      && verified.reply.status == OK
      && verified.st.users == st.users + [RegisteredUser(b, id, salt, lib).(isEmailVerified := true)]
      && verified.st.otps == st.otps
  {
    RegisterWrites(st, b, id, salt, now, draw, mailOk, lib);
    UnknownUserHasNoCode(st, id, now);
    VerifyRegistered(st, b, id, salt, now, draw, lib, later);
  }

  /** Verifying the state a registration writes, with the drawn code and
      within its lifetime, when no earlier code belongs to the new id. */
  lemma VerifyRegistered(st: AuthState, b: RegisterBody, id: UserId, salt: nat, now: nat, draw: Draw, lib: Lib, later: nat)
    requires Registers(st, b, id, lib)
    requires forall k :: 0 <= k < |st.otps| ==> st.otps[k].userId != id
    requires now <= later < now + OTP_TTL_MS
    ensures var u := RegisteredUser(b, id, salt, lib);
      var registered := AuthState(st.users + [u], st.otps + [OtpRecord(id, NatToDecimal(OtpCode(draw)), now)], st.sessions);
      var verified := VerifyEmail(registered, b.email.value, Number(OtpCode(draw) as real), later);
      && verified.reply.status == OK
      && verified.st.users == st.users + [u.(isEmailVerified := true)]
      && verified.st.otps == st.otps
  {
    var u := RegisteredUser(b, id, salt, lib);
    var rec := OtpRecord(id, NatToDecimal(OtpCode(draw)), now);
    StoredCodeReadsBack(draw);
    VerifyNewest(st.users, u, st.otps, rec, st.sessions, b.email.value, Number(OtpCode(draw) as real), later);
  }

  /** What a registration writes into a state satisfying the invariant:
      the new user and exactly one code record for it. */
  lemma RegisterWrites(st: AuthState, b: RegisterBody, id: UserId, salt: nat, now: nat, draw: Draw, mailOk: bool, lib: Lib)
    requires Inv(st, now) && Registers(st, b, id, lib)
    ensures CreateUser(st, b, id, salt, now, draw, mailOk, lib).st ==
      AuthState(st.users + [RegisteredUser(b, id, salt, lib)], st.otps + [OtpRecord(id, NatToDecimal(OtpCode(draw)), now)], st.sessions)
    ensures forall j :: 0 <= j < |st.users| ==> !WithEmail(b.email.value)(st.users[j])
    ensures forall k :: 0 <= k < |st.otps| ==> st.otps[k].userId != id
  {
    var u := RegisteredUser(b, id, salt, lib);
    UnknownUserHasNoCode(st, id, now);
    assert !HasLiveOtp(st.otps, u.id, now);
    var sent := SendOtpVerificationMail(st.otps, u, now, draw, mailOk);
    assert sent.otps == st.otps + [OtpRecord(id, NatToDecimal(OtpCode(draw)), now)];
  }

  /** Verifying the newest user with the newest code, when no earlier user
      has that email and no earlier code belongs to that user. */
  lemma VerifyNewest(users: seq<User>, u: User, otps: seq<OtpRecord>, rec: OtpRecord, sessions: seq<Session>,
                     email: string, otp: JsValue, now: nat)
    requires forall j :: 0 <= j < |users| ==> !WithEmail(email)(users[j])
    requires WithEmail(email)(u) && !u.isEmailVerified
    requires forall k :: 0 <= k < |otps| ==> otps[k].userId != u.id
    requires rec.userId == u.id && OtpLive(rec, now) && CodeMatches(otp, rec.otp)
    ensures var out := VerifyEmail(AuthState(users + [u], otps + [rec], sessions), email, otp, now);
      && out.reply.status == OK
      && out.st.users == users + [u.(isEmailVerified := true)]
      && out.st.otps == otps
  {
    var st := AuthState(users + [u], otps + [rec], sessions);
    FindFirstAppend(users, u, WithEmail(email));
    FindFirstAppend(otps, rec, LiveOtpOf(u.id, now));
    assert st.users[|users|] == u && st.otps[|otps|] == rec;
    assert RemoveAt(st.otps, |otps|) == otps;
    assert st.users[|users| := u.(isEmailVerified := true)] == users + [u.(isEmailVerified := true)];
  }

  /** Login never looks at the verification flag: changing it changes no
      reply. */
  lemma LoginIgnoresVerification(st: AuthState, i: nat, flag: bool, email: Option<string>, password: Option<string>,
                                 client: Client, tokens: TokenPair, now: nat, lib: Lib)
    requires i < |st.users|
    ensures var st' := st.(users := st.users[i := st.users[i].(isEmailVerified := flag)]);
      Login(st', email, password, client, tokens, now, lib).reply == Login(st, email, password, client, tokens, now, lib).reply
  {
    var users' := st.users[i := st.users[i].(isEmailVerified := flag)];
    if Truthy(email) {
      var p := WithEmail(email.value);
      assert forall j :: 0 <= j < |st.users| ==> p(st.users[j]) == p(users'[j]);
      FindFirstAgrees(st.users, p, users', p);
    }
  }

  /** Refresh looks a session up by its owner, not by the token presented:
      when a user has logged in from two clients, the second client's
      refresh meets the first client's session, whose fingerprint differs;
      that session is deleted and the refresh refused, although the second
      client's own session is live and holds the very token presented. */
  lemma SecondClientRefreshEvictsFirst(st: AuthState, cookie: string, a: nat, b: nat, client: Client,
                                       tokens: TokenPair, now: nat, lib: Lib)
    requires a < b < |st.sessions|
    requires !lib.isTokenExpired(cookie) && cookie != ""
    requires lib.verifyRefresh(cookie).Verified?
    requires var id := lib.verifyRefresh(cookie).claims.id;
      && FindFirst(st.sessions, LiveSessionOf(id, now)) == Some(a)
      && st.sessions[b] == Session(id, cookie, client.ip, AgentOf(client.userAgent), st.sessions[b].createdAt, st.sessions[b].expiresAt)
      && SessionLive(st.sessions[b], now)
      && st.sessions[a].ipAddress != client.ip
    ensures var out := Refresh(st, Some(cookie), client, tokens, now, lib);
      && out.reply.status == UNAUTHORIZED
      && out.st.sessions == RemoveAt(st.sessions, a)
      && st.sessions[b] in out.st.sessions
  {
    var r := RemoveAt(st.sessions, a);
    assert r[b - 1] == st.sessions[b];
  }

  /** A successful refresh writes nothing, so the refresh token it was given
      keeps working: presenting it again at the same instant succeeds too,
      whatever new tokens are minted. */
  lemma RefreshTokenReusable(st: AuthState, cookie: Option<string>, client: Client, tokens: TokenPair,
                             again: TokenPair, now: nat, lib: Lib)
    requires Refresh(st, cookie, client, tokens, now, lib).reply.status == OK
    ensures var out := Refresh(st, cookie, client, tokens, now, lib);
      Refresh(out.st, cookie, client, again, now, lib).reply.status == OK
  {
  }

  /** After a logout, the browser holds no access token, so the next request
      through the access-token gate is refused with 401 and the cookies are
      cleared again. */
  lemma LogoutThenGateRefuses(st: AuthState, jar: Jar, cookie: Option<string>, now: nat, lib: Lib)
    requires Authenticate(st.users, cookie, lib).Continue?
    ensures var out := Step(st, LogOut(cookie), now, lib);
      var jar' := ApplyCookies(jar, out.reply.cookies);
      && out.reply.status == OK
      && AccessGate(jar'.accessToken, lib.verifyAccess) == Reject(UNAUTHORIZED, AccessTokenGate.MSG_LOGIN, true)
  {
  }

  /** Logging out removes one of the caller's live sessions and no one
      else's. */
  lemma LogoutRemovesOnlyCallers(st: AuthState, caller: UserId, now: nat, s: Session)
    requires s in st.sessions && s.userId != caller
    ensures s in Logout(st, caller, now).st.sessions
  {
    match FindFirst(st.sessions, LiveSessionOf(caller, now))
    case None =>
    case Some(k) =>
      var r := RemoveAt(st.sessions, k);
      var j :| 0 <= j < |st.sessions| && st.sessions[j] == s;
      assert j != k;
      if j < k { assert r[j] == s; } else { assert r[j - 1] == s; }
  }
}

=== FILE: course_controller.dfy ===
/** The course handlers (controllers/course.controller.js): creating a
    course under a unique slug, the sparse update of its details by its
    instructors, and appending sections. The course store is a sequence of
    documents in insertion order. */
module CourseController {
  import opened Js
  import opened Http
  import opened Models
  import opened Store
  import opened CourseModel
  import opened Courses

  const MSG_INVALID_INFO := "please provide valid info"
  const MSG_SLUG_TAKEN := "course with slug already present, please provide unique slug"
  const MSG_COURSE_CREATED := "course created successfully"
  const MSG_INVALID_DATA := "please send valid data."
  const MSG_NOT_ELIGIBLE := "you are not eligible to edit the course content."
  const MSG_NO_PERMISSION := "You don't have permission to update this course."

  datatype CourseOutcome = CourseOutcome(courses: seq<Course>, reply: Reply<Course>)

  /** The filter `{ slug }`. */
  function WithSlug(slug: string): Course -> bool {
    (c: Course) => c.slug == slug
  }

  /** The filter `{ _id }`. */
  function WithCourseId(id: CourseId): Course -> bool {
    (c: Course) => c.id == id
  }

  /** An optional array field: the schema stores an absent array as empty. */
  function OrEmpty(xs: Option<seq<string>>): (r: seq<string>)
    ensures xs.Some? ==> r == xs.value
    ensures xs.None? ==> r == []
  {
    if xs.Some? then xs.value else []
  }

  /** The document `create` writes from a parsed body: the title trimmed by
      its setter, the caller as instructor, pricing fields left out of the
      body given their schema defaults, and every counter at zero. */
  function NewCourse(id: CourseId, p: ParsedCourse, caller: UserId): (c: Course)
    ensures c.id == id && c.instructor == caller && c.coInstructor == []
    ensures c.title == Trim(p.title) && c.slug == p.slug && c.description == p.description
    ensures c.category == p.category && c.level == p.level && c.subCategory == p.subCategory
    ensures c.tags == OrEmpty(p.tags) && c.requirements == OrEmpty(p.requirements)
    ensures c.whatYouWillLearn == OrEmpty(p.whatYouWillLearn) && c.targetAudience == OrEmpty(p.targetAudience)
    ensures c.pricing.kind == p.pricing.kind
    ensures c.pricing.amount == (if p.pricing.amount.Some? then p.pricing.amount.value else DEFAULT_AMOUNT)
    ensures c.pricing.currency == (if p.pricing.currency.Some? then p.pricing.currency.value else DEFAULT_CURRENCY)
    ensures c.pricing.discountPercentage ==
      (if p.pricing.discountPercentage.Some? then p.pricing.discountPercentage.value else DEFAULT_DISCOUNT)
    ensures c.pricing.discountValidUntil == p.pricing.discountValidUntil
    ensures c.sections == [] && c.status == Draft && c.thumbnail.None? && c.previewVideo.None?
    ensures c.enrollmentCount == 0 && c.ratingsCount == 0
    ensures c.totalDuration == 0.0 && c.averageRating == 0.0 && c.totalRevenue == 0.0
  {
    var pr := p.pricing;
    Course(
      id, Trim(p.title), p.slug, p.description, None, None, caller, [],
      p.category, p.subCategory, p.level, OrEmpty(p.tags), [],
      Pricing(pr.kind,
              if pr.amount.Some? then pr.amount.value else DEFAULT_AMOUNT,
              if pr.currency.Some? then pr.currency.value else DEFAULT_CURRENCY,
              if pr.discountPercentage.Some? then pr.discountPercentage.value else DEFAULT_DISCOUNT,
              pr.discountValidUntil),
      OrEmpty(p.requirements), OrEmpty(p.whatYouWillLearn), OrEmpty(p.targetAudience),
      Draft, 0, 0.0, 0.0, 0, 0.0)
  }

  // ---------------------------------------------------------------------
  // createCourse

  /** `createCourse` for the authenticated caller with a freshly generated
      id. A body outside the schema's bounds: 400; a slug already in use:
      409. A title made only of whitespace passes the schema's length bound
      but is empty once the title setter trims it, so the store refuses it
      (500), as it refuses an id already in use. In every refusal the store
      is as it was; otherwise exactly one course is appended. */
  function CreateCourse(courses: seq<Course>, body: CourseInput, caller: UserId, id: CourseId): (out: CourseOutcome)
    ensures out.reply.status != OK ==> out.courses == courses
    ensures ParseCreateCourse(body).None? ==> out.reply == Error(BAD_REQUEST, MSG_INVALID_INFO)
    ensures ParseCreateCourse(body).Some? && FindFirst(courses, WithSlug(body.slug)).Some? ==>
      out.reply == Error(CONFLICT, MSG_SLUG_TAKEN)
    ensures out.reply.status == OK <==>
      && ParseCreateCourse(body).Some?
      && FindFirst(courses, WithSlug(body.slug)).None?
      && FindFirst(courses, WithCourseId(id)).None?
      && Trim(body.title) != []
    ensures out.reply.status == OK ==>
      && out.courses == courses + [NewCourse(id, ParseCreateCourse(body).value, caller)]
      && out.reply.body == Some(NewCourse(id, ParseCreateCourse(body).value, caller))
  {
    match ParseCreateCourse(body)
    case None => CourseOutcome(courses, Error(BAD_REQUEST, MSG_INVALID_INFO))
    case Some(p) =>
      if FindFirst(courses, WithSlug(p.slug)).Some? then CourseOutcome(courses, Error(CONFLICT, MSG_SLUG_TAKEN))
      else if Trim(p.title) == [] || FindFirst(courses, WithCourseId(id)).Some? then CourseOutcome(courses, Fault())
      else
        var c := NewCourse(id, p, caller);
        CourseOutcome(courses + [c], Reply(OK, MSG_COURSE_CREATED, KeepCookies, Some(c)))
  }

  /** No two courses share a slug, and none shares an id. */
  ghost predicate KeysUnique(courses: seq<Course>) {
    forall i, j :: 0 <= i < j < |courses| ==>
      courses[i].slug != courses[j].slug && courses[i].id != courses[j].id
  }

  /** Creating a course keeps slugs and ids unique. */
  lemma CreateKeepsKeysUnique(courses: seq<Course>, body: CourseInput, caller: UserId, id: CourseId)
    requires KeysUnique(courses)
    ensures KeysUnique(CreateCourse(courses, body, caller, id).courses)
  {
    var out := CreateCourse(courses, body, caller, id);
    if out.reply.status == OK {
      var c := NewCourse(id, ParseCreateCourse(body).value, caller);
      assert c.slug == body.slug && c.id == id;
      forall i | 0 <= i < |courses|
        ensures courses[i].slug != c.slug && courses[i].id != c.id
      {
        assert !WithSlug(body.slug)(courses[i]);
        assert !WithCourseId(id)(courses[i]);
      }
      AppendKeepsKeysUnique(courses, c);
    }
  }

  /** Appending a course whose slug and id are new keeps keys unique. */
  lemma AppendKeepsKeysUnique(courses: seq<Course>, c: Course)
    requires KeysUnique(courses)
    requires forall i :: 0 <= i < |courses| ==> courses[i].slug != c.slug && courses[i].id != c.id
    ensures KeysUnique(courses + [c])
  {
    var t := courses + [c];
    forall i, j | 0 <= i < j < |t|
      ensures t[i].slug != t[j].slug && t[i].id != t[j].id
    {
      assert t[i] == courses[i];
      if j < |courses| {
        assert t[j] == courses[j];
      }
    }
  }

  // ---------------------------------------------------------------------
  // Permission

  /** The lookup and permission check both editing handlers share: an
      unknown course is refused with 401, a caller who is neither its
      instructor nor a co-instructor with 403; otherwise the course's index. */
  function EditableCourse(courses: seq<Course>, courseId: CourseId, caller: UserId): (d: Decision<nat>)
    ensures d.Reject? ==> !d.clearsCookies
    ensures FindFirst(courses, WithCourseId(courseId)).None? ==> d == Reject(UNAUTHORIZED, MSG_NOT_ELIGIBLE, false)
    ensures d.Continue? <==>
      FindFirst(courses, WithCourseId(courseId)).Some? && MayEdit(courses[FindFirst(courses, WithCourseId(courseId)).value], caller)
    ensures d.Continue? ==> d.value == FindFirst(courses, WithCourseId(courseId)).value
    ensures d.Reject? && FindFirst(courses, WithCourseId(courseId)).Some? ==> d == Reject(FORBIDDEN, MSG_NO_PERMISSION, false)
  {
    match FindFirst(courses, WithCourseId(courseId))
    case None => Reject(UNAUTHORIZED, MSG_NOT_ELIGIBLE, false)
    case Some(i) =>
      if !MayEdit(courses[i], caller) then Reject(FORBIDDEN, MSG_NO_PERMISSION, false)
      else Continue(i)
  }

  // ---------------------------------------------------------------------
  // updateCourseDetails

  /** The keys of a parsed pricing update; each may be left out. */
  datatype PricingPatch = PricingPatch(
    kind: Option<PricingType>,
    amount: Option<real>,
    currency: Option<string>,
    discountPercentage: Option<real>,
    discountValidUntil: Option<int>)

  /** A parsed course update; `None` is a key the body leaves out. */
  datatype CourseUpdate = CourseUpdate(
    title: Option<string>,
    category: Option<Category>,
    description: Option<string>,
    level: Option<Level>,
    subCategory: Option<string>,
    status: Option<CourseStatus>,
    thumbnail: Option<Media>,
    previewVideo: Option<Video>,
    tags: Option<seq<string>>,
    requirements: Option<seq<string>>,
    whatYouWillLearn: Option<seq<string>>,
    targetAudience: Option<seq<string>>,
    pricing: Option<PricingPatch>)

  /** `{ ...existing, ...patch }`: a key the patch supplies overrides, every
      other pricing key keeps its stored value. */
  function MergePricing(p: Pricing, patch: PricingPatch): (m: Pricing)
    ensures m.kind == (if patch.kind.Some? then patch.kind.value else p.kind)
    ensures m.amount == (if patch.amount.Some? then patch.amount.value else p.amount)
    ensures m.currency == (if patch.currency.Some? then patch.currency.value else p.currency)
    ensures m.discountPercentage ==
      (if patch.discountPercentage.Some? then patch.discountPercentage.value else p.discountPercentage)
    ensures m.discountValidUntil == (if patch.discountValidUntil.Some? then patch.discountValidUntil else p.discountValidUntil)
  {
    Pricing(
      if patch.kind.Some? then patch.kind.value else p.kind,
      if patch.amount.Some? then patch.amount.value else p.amount,
      if patch.currency.Some? then patch.currency.value else p.currency,
      if patch.discountPercentage.Some? then patch.discountPercentage.value else p.discountPercentage,
      if patch.discountValidUntil.Some? then patch.discountValidUntil else p.discountValidUntil)
  }

  /** Merging the same patch a second time changes nothing more. */
  lemma MergePricingIdempotent(p: Pricing, patch: PricingPatch)
    ensures MergePricing(MergePricing(p, patch), patch) == MergePricing(p, patch)
  {
  }

  /** An empty patch keeps the stored pricing. */
  lemma MergeEmptyPatch(p: Pricing)
    ensures MergePricing(p, PricingPatch(None, None, None, None, None)) == p
  {
  }

  /** The value a field takes under an update whose key is tested for
      truthiness: a supplied non-empty string overrides. */
  function SetText(current: string, supplied: Option<string>): (r: string)
    ensures Truthy(supplied) ==> r == supplied.value
    ensures !Truthy(supplied) ==> r == current
  {
    if Truthy(supplied) then supplied.value else current
  }

  /** A field whose key is tested for truthiness and holds an object, an
      array or an enumeration value: truthy whenever supplied, so a
      supplied value always overrides. */
  function Override<T>(current: T, supplied: Option<T>): (r: T)
    ensures supplied.Some? ==> r == supplied.value
    ensures supplied.None? ==> r == current
  {
    if supplied.Some? then supplied.value else current
  }

  /** An optional stored field set from an optional key. */
  function OrNone<T>(supplied: Option<T>): (r: Option<Option<T>>)
    ensures supplied.Some? ==> r == Some(supplied)
    ensures supplied.None? ==> r == None
  {
    if supplied.Some? then Some(supplied) else None
  }

  /** An optional stored string set from a key tested for truthiness. */
  function SetOptionalText(current: Option<string>, supplied: Option<string>): (r: Option<string>)
    ensures Truthy(supplied) ==> r == supplied
    ensures !Truthy(supplied) ==> r == current
  {
    if Truthy(supplied) then supplied else current
  }

  /** The pricing after an update: merged when the key is supplied. */
  function PricingUpdate(current: Pricing, supplied: Option<PricingPatch>): (r: Pricing)
    ensures supplied.Some? ==> r == MergePricing(current, supplied.value)
    ensures supplied.None? ==> r == current
  {
    if supplied.Some? then MergePricing(current, supplied.value) else current
  }

  /** The update applied to a stored course: a supplied string overrides
      only when non-empty (the title passing through its trim setter);
      enumerations, media objects and arrays override whenever supplied (an
      object or array, even an empty one, is truthy); pricing is merged key
      by key. The id, slug, instructors, sections and counters never change. */
  function ApplyCourseUpdate(c: Course, v: CourseUpdate): (d: Course)
    ensures d.id == c.id && d.slug == c.slug && d.instructor == c.instructor && d.coInstructor == c.coInstructor
    ensures d.sections == c.sections && d.enrollmentCount == c.enrollmentCount && d.ratingsCount == c.ratingsCount
    ensures d.totalDuration == c.totalDuration && d.averageRating == c.averageRating && d.totalRevenue == c.totalRevenue
    ensures d.title == (if Truthy(v.title) then Trim(v.title.value) else c.title)
    ensures d.description == SetText(c.description, v.description)
    ensures d.subCategory == (if Truthy(v.subCategory) then v.subCategory else c.subCategory)
    ensures d.category == (if v.category.Some? then v.category.value else c.category)
    ensures d.level == (if v.level.Some? then v.level.value else c.level)
    ensures d.status == (if v.status.Some? then v.status.value else c.status)
    ensures d.thumbnail == (if v.thumbnail.Some? then v.thumbnail else c.thumbnail)
    ensures d.previewVideo == (if v.previewVideo.Some? then v.previewVideo else c.previewVideo)
    ensures d.tags == (if v.tags.Some? then v.tags.value else c.tags)
    ensures d.requirements == (if v.requirements.Some? then v.requirements.value else c.requirements)
    ensures d.whatYouWillLearn == (if v.whatYouWillLearn.Some? then v.whatYouWillLearn.value else c.whatYouWillLearn)
    ensures d.targetAudience == (if v.targetAudience.Some? then v.targetAudience.value else c.targetAudience)
    ensures d.pricing == (if v.pricing.Some? then MergePricing(c.pricing, v.pricing.value) else c.pricing)
  {
    Course(
      c.id,
      if Truthy(v.title) then Trim(v.title.value) else c.title,
      c.slug,
      SetText(c.description, v.description),
      Override(c.thumbnail, OrNone(v.thumbnail)),
      Override(c.previewVideo, OrNone(v.previewVideo)),
      c.instructor,
      c.coInstructor,
      Override(c.category, v.category),
      SetOptionalText(c.subCategory, v.subCategory),
      Override(c.level, v.level),
      Override(c.tags, v.tags),
      c.sections,
      PricingUpdate(c.pricing, v.pricing),
      Override(c.requirements, v.requirements),
      Override(c.whatYouWillLearn, v.whatYouWillLearn),
      Override(c.targetAudience, v.targetAudience),
      Override(c.status, v.status),
      c.enrollmentCount, c.totalDuration, c.averageRating, c.ratingsCount, c.totalRevenue)
  }

  /** An update with no keys leaves the course as it was. */
  lemma EmptyUpdateKeepsCourse(c: Course)
    ensures ApplyCourseUpdate(c, CourseUpdate(None, None, None, None, None, None, None, None, None, None, None, None, None)) == c
  {
  }

  /** `updateCourseDetails`. `parsed` is the update schema's verdict on the
      body (`None` when it rejects it): 400. Then the lookup and permission
      check (401, 403). Every refusal leaves the store as it was; an
      accepted update changes only the addressed course. */
  function UpdateCourseDetails(courses: seq<Course>, courseId: CourseId, parsed: Option<CourseUpdate>, caller: UserId): (out: CourseOutcome)
    ensures out.reply.status != OK ==> out.courses == courses
    ensures parsed.None? ==> out.reply == Error(BAD_REQUEST, MSG_INVALID_DATA)
    ensures parsed.Some? && EditableCourse(courses, courseId, caller).Reject? ==>
      out.reply == Error(EditableCourse(courses, courseId, caller).status, EditableCourse(courses, courseId, caller).message)
    ensures parsed.Some? && EditableCourse(courses, courseId, caller).Continue? ==>
      var i := EditableCourse(courses, courseId, caller).value;
      && i < |courses|
      && out.reply.status == OK
      && out.courses == courses[i := ApplyCourseUpdate(courses[i], parsed.value)]
      && out.reply.body == Some(out.courses[i])
  {
    if parsed.None? then CourseOutcome(courses, Error(BAD_REQUEST, MSG_INVALID_DATA))
    else match EditableCourse(courses, courseId, caller)
      case Reject(code, msg, _) => CourseOutcome(courses, Error(code, msg))
      case Continue(i) =>
        var d := ApplyCourseUpdate(courses[i], parsed.value);
        CourseOutcome(courses[i := d], Reply(OK, "", KeepCookies, Some(d)))
  }

  /** Updating never touches slugs or ids, so it keeps them unique. */
  lemma UpdateKeepsKeysUnique(courses: seq<Course>, courseId: CourseId, parsed: Option<CourseUpdate>, caller: UserId)
    requires KeysUnique(courses)
    ensures KeysUnique(UpdateCourseDetails(courses, courseId, parsed, caller).courses)
  {
    var out := UpdateCourseDetails(courses, courseId, parsed, caller);
    if out.reply.status == OK {
      assert forall k :: 0 <= k < |courses| ==>
        out.courses[k].slug == courses[k].slug && out.courses[k].id == courses[k].id;
    }
  }

  /** Sending the same update twice leaves the store as sending it once
      did: the permission check still passes and every override and merge
      is a fixed point. */
  lemma UpdateIdempotent(courses: seq<Course>, courseId: CourseId, parsed: Option<CourseUpdate>, caller: UserId)
    ensures var once := UpdateCourseDetails(courses, courseId, parsed, caller).courses;
      UpdateCourseDetails(once, courseId, parsed, caller).courses == once
  {
    var out := UpdateCourseDetails(courses, courseId, parsed, caller);
    if out.reply.status == OK {
      var once := out.courses;
      var i := EditableCourse(courses, courseId, caller).value;
      var p := WithCourseId(courseId);
      assert forall k :: 0 <= k < |courses| ==> p(courses[k]) == p(once[k]);
      FindFirstAgrees(courses, p, once, p);
      var c := courses[i];
      var v := parsed.value;
      if Truthy(v.title) {
        TrimIdempotent(v.title.value);
      }
      if v.pricing.Some? {
        MergePricingIdempotent(c.pricing, v.pricing.value);
      }
      assert ApplyCourseUpdate(once[i], v) == once[i];
    }
  }

  // ---------------------------------------------------------------------
  // addCourseSection

  /** `addCourseSection`. `parsed` is the section schema's verdict on the
      body (`None` when it rejects it): 400; then the shared lookup and
      permission check. On success the new sections follow the existing
      ones, in request order, and nothing else of the course changes. */
  function AddCourseSection(courses: seq<Course>, courseId: CourseId, parsed: Option<seq<Section>>, caller: UserId): (out: CourseOutcome)
    ensures out.reply.status != OK ==> out.courses == courses
    ensures parsed.None? ==> out.reply == Error(BAD_REQUEST, MSG_INVALID_DATA)
    ensures parsed.Some? && EditableCourse(courses, courseId, caller).Reject? ==>
      out.reply == Error(EditableCourse(courses, courseId, caller).status, EditableCourse(courses, courseId, caller).message)
    ensures parsed.Some? && EditableCourse(courses, courseId, caller).Continue? ==>
      var i := EditableCourse(courses, courseId, caller).value;
      && i < |courses|
      && out.reply.status == OK
      && |out.courses| == |courses|
      && |out.courses[i].sections| == |courses[i].sections| + |parsed.value|
      && out.courses[i].sections[..|courses[i].sections|] == courses[i].sections
      && out.courses[i].sections[|courses[i].sections|..] == parsed.value
      && out.courses[i] == courses[i].(sections := out.courses[i].sections)
      && (forall k :: 0 <= k < |courses| && k != i ==> out.courses[k] == courses[k])
  {
    if parsed.None? then CourseOutcome(courses, Error(BAD_REQUEST, MSG_INVALID_DATA))
    else match EditableCourse(courses, courseId, caller)
      case Reject(code, msg, _) => CourseOutcome(courses, Error(code, msg))
      case Continue(i) =>
        var d := courses[i].(sections := courses[i].sections + parsed.value);
        CourseOutcome(courses[i := d], Reply(OK, "", KeepCookies, Some(d)))
  }

  /** Adding sections in two requests gives the same course as adding them
      together in one. */
  lemma AddSectionsCompose(courses: seq<Course>, courseId: CourseId, a: seq<Section>, b: seq<Section>, caller: UserId)
    requires EditableCourse(courses, courseId, caller).Continue?
    ensures var once := AddCourseSection(courses, courseId, Some(a), caller).courses;
      AddCourseSection(once, courseId, Some(b), caller).courses == AddCourseSection(courses, courseId, Some(a + b), caller).courses
  {
    var once := AddCourseSection(courses, courseId, Some(a), caller).courses;
    var i := EditableCourse(courses, courseId, caller).value;
    var p := WithCourseId(courseId);
    assert forall k :: 0 <= k < |courses| ==> p(courses[k]) == p(once[k]);
    FindFirstAgrees(courses, p, once, p);
    assert once[i].sections + b == courses[i].sections + (a + b);
  }
}

=== FILE: course_model.dfy ===
/** The course document (models/Course.js): enumerated fields, pricing,
    sections and the schema defaults a new course receives. */
module CourseModel {
  import opened Js
  import opened Models

  type CourseId = nat

  datatype Category = Frontend | Backend | Devops | ProgrammingLanguage | UiUx
  datatype Level = Beginner | Intermediate | Advanced
  datatype PricingType = Free | Paid | Subscription
  datatype CourseStatus = Draft | PendingReview | Published | Archived

  /** Uploaded media reference (`thumbnail`). */
  datatype Media = Media(url: Option<string>, publicId: Option<string>)
  /** Uploaded video reference (`previewVideo`). */
  datatype Video = Video(url: Option<string>, publicId: Option<string>, duration: Option<real>)

  /** Stored pricing; `amount`, `currency` and `discountPercentage` always
      hold a value once the schema defaults apply. */
  datatype Pricing = Pricing(
    kind: PricingType,
    amount: real,
    currency: string,
    discountPercentage: real,
    discountValidUntil: Option<int>)

  datatype Section = Section(title: string, description: Option<string>, order: int, lessons: seq<nat>)

  datatype Course = Course(
    id: CourseId,
    title: string,
    slug: string,
    description: string,
    thumbnail: Option<Media>,
    previewVideo: Option<Video>,
    instructor: UserId,
    coInstructor: seq<UserId>,
    category: Category,
    subCategory: Option<string>,
    level: Level,
    tags: seq<string>,
    sections: seq<Section>,
    pricing: Pricing,
    requirements: seq<string>,
    whatYouWillLearn: seq<string>,
    targetAudience: seq<string>,
    status: CourseStatus,
    enrollmentCount: int,
    totalDuration: real,
    averageRating: real,
    ratingsCount: int,
    totalRevenue: real)

  const DEFAULT_AMOUNT := 0.0
  const DEFAULT_CURRENCY := "USD"
  const DEFAULT_DISCOUNT := 0.0

  function ParseCategory(s: string): (c: Option<Category>)
    ensures c.Some? <==> s in {"frontend", "backend", "devops", "programming language", "ui/ux"}
  {
    if s == "frontend" then Some(Frontend)
    else if s == "backend" then Some(Backend)
    else if s == "devops" then Some(Devops)
    else if s == "programming language" then Some(ProgrammingLanguage)
    else if s == "ui/ux" then Some(UiUx)
    else None
  }

  function ParseLevel(s: string): (l: Option<Level>)
    ensures l.Some? <==> s in {"beginner", "intermediate", "advanced"}
  {
    if s == "beginner" then Some(Beginner)
    else if s == "intermediate" then Some(Intermediate)
    else if s == "advanced" then Some(Advanced)
    else None
  }

  function ParsePricingType(s: string): (t: Option<PricingType>)
    ensures t.Some? <==> s in {"free", "paid", "subscription"}
  {
    if s == "free" then Some(Free)
    else if s == "paid" then Some(Paid)
    else if s == "subscription" then Some(Subscription)
    else None
  }

  /** The course an instructor may modify: its instructor, or anyone listed
      as a co-instructor. */
  predicate MayEdit(c: Course, caller: UserId) {
    c.instructor == caller || caller in c.coInstructor
  }
}

=== FILE: courses.dfy ===
/** The course input rules (utils/Courses.js): the slug grammar
    `^[a-z0-9]+(?:-[a-z0-9]+)*$`, the `slugify` helper and the field bounds
    of the create-course schema. */
module Courses {
  import opened Js
  import opened CourseModel

  // ---------------------------------------------------------------------
  // Slug grammar

  predicate IsSlugAlnum(c: char) {
    'a' <= c <= 'z' || '0' <= c <= '9'
  }

  predicate SlugChars(s: string) {
    forall i :: 0 <= i < |s| ==> IsSlugAlnum(s[i]) || s[i] == '-'
  }

  predicate NoDoubleDash(s: string) {
    forall i, j :: 0 <= i < |s| && j == i + 1 && j < |s| ==> !(s[i] == '-' && s[j] == '-')
  }

  /** The shape the slug regex describes, character by character: non-empty,
      only `[a-z0-9-]`, no dash at either end and never two dashes in a
      row. */
  predicate SlugShape(s: string) {
    && s != []
    && SlugChars(s)
    && s[0] != '-'
    && s[|s| - 1] != '-'
    && NoDoubleDash(s)
  }

  /** States of a matcher for `^[a-z0-9]+(?:-[a-z0-9]+)*$`: a group
      character is expected (at the start or after a dash), inside a group,
      or failed. */
  datatype SlugState = ExpectAlnum | InGroup | Dead

  function SlugStep(q: SlugState, c: char): SlugState {
    match q
    case ExpectAlnum => if IsSlugAlnum(c) then InGroup else Dead
    case InGroup => if IsSlugAlnum(c) then InGroup else if c == '-' then ExpectAlnum else Dead
    case Dead => Dead
  }

  function SlugRun(q: SlugState, s: string): SlugState
    decreases |s|
  {
    if s == [] then q else SlugRun(SlugStep(q, s[0]), s[1..])
  }

  /** The slug regex: the whole string drives the matcher from its start
      state to the accepting state (inside a group). */
  predicate MatchesSlugRegex(s: string) {
    SlugRun(ExpectAlnum, s) == InGroup
  }

  /** One group character in front of a string keeps or makes a slug shape
      exactly when the rest is empty, a slug, or a dash followed by a slug. */
  lemma ShapeAfterAlnum(c: char, s: string)
    requires IsSlugAlnum(c)
    ensures SlugShape([c] + s) <==> (s == [] || SlugShape(s) || (s[0] == '-' && SlugShape(s[1..])))
  {
    var t := [c] + s;
    if s != [] && s[0] == '-' && SlugShape(s[1..]) {
      assert forall i :: 1 <= i < |t| ==> t[i] == s[i - 1];
      assert forall i :: 2 <= i < |t| ==> t[i] == s[1..][i - 2];
    }
    if SlugShape(t) && s != [] && !SlugShape(s) {
      assert forall i :: 0 <= i < |s| ==> s[i] == t[i + 1];
      assert SlugChars(s) && NoDoubleDash(s) && s[|s| - 1] != '-';
      assert s[0] == '-';
      assert forall i :: 0 <= i < |s| - 1 ==> s[1..][i] == t[i + 2];
    }
  }

  /** The matcher's acceptance from each state, stated as shapes. */
  lemma {:induction false} SlugRunShape(q: SlugState, s: string)
    ensures q == ExpectAlnum ==> (SlugRun(q, s) == InGroup <==> SlugShape(s))
    ensures q == InGroup ==>
      (SlugRun(q, s) == InGroup <==> (s == [] || SlugShape(s) || (s[0] == '-' && SlugShape(s[1..]))))
    ensures q == Dead ==> SlugRun(q, s) == Dead
    decreases |s|
  {
    if s != [] {
      var c := s[0];
      var rest := s[1..];
      assert s == [c] + rest;
      SlugRunShape(SlugStep(q, c), rest);
      if IsSlugAlnum(c) {
        ShapeAfterAlnum(c, rest);
      } else if c == '-' {
        assert !SlugShape(s);
      } else {
        assert !SlugChars(s);
      }
    }
  }

  /** The slug regex accepts a string exactly when it has the slug shape:
      one or more `[a-z0-9]+` groups joined by single dashes. */
  lemma SlugRegexIffShape(s: string)
    ensures MatchesSlugRegex(s) <==> SlugShape(s)
  {
    SlugRunShape(ExpectAlnum, s);
  }

  // ---------------------------------------------------------------------
  // slugify

  /** Length of the run of characters outside `[a-z0-9]` at the front. */
  function NonAlnumRun(s: string): (n: nat)
    ensures n <= |s|
    ensures s != [] && !IsSlugAlnum(s[0]) ==> n >= 1
    ensures n < |s| ==> IsSlugAlnum(s[n])
  {
    if s != [] && !IsSlugAlnum(s[0]) then 1 + NonAlnumRun(s[1..]) else 0
  }

  /** The run `NonAlnumRun` measures holds no `[a-z0-9]` character. */
  lemma {:induction false} NonAlnumRunAll(s: string)
    ensures forall i :: 0 <= i < NonAlnumRun(s) ==> !IsSlugAlnum(s[i])
    decreases |s|
  {
    if s != [] && !IsSlugAlnum(s[0]) {
      NonAlnumRunAll(s[1..]);
      assert forall i :: 1 <= i < NonAlnumRun(s) ==> s[i] == s[1..][i - 1];
    }
  }

  /** Length of the run of `[a-z0-9]` characters at the front. */
  function AlnumRun(s: string): (n: nat)
    ensures n <= |s|
    ensures s != [] && IsSlugAlnum(s[0]) ==> n >= 1
    ensures n < |s| ==> !IsSlugAlnum(s[n])
  {
    if s != [] && IsSlugAlnum(s[0]) then 1 + AlnumRun(s[1..]) else 0
  }

  /** The run `AlnumRun` measures is a word. */
  lemma {:induction false} AlnumRunAll(s: string)
    ensures AllAlnum(s[..AlnumRun(s)])
    decreases |s|
  {
    if s != [] && IsSlugAlnum(s[0]) {
      AlnumRunAll(s[1..]);
      var w := s[..AlnumRun(s)];
      assert forall i :: 1 <= i < |w| ==> w[i] == s[1..][..AlnumRun(s[1..])][i - 1];
    }
  }

  predicate AllAlnum(w: string) {
    forall i :: 0 <= i < |w| ==> IsSlugAlnum(w[i])
  }

  /** The words of a text: its maximal runs of `[a-z0-9]`, in order. This
      and `JoinDash` are the reference description of `slugify`, written
      independently of the two replacements. */
  function Words(s: string): (ws: seq<string>)
    ensures forall k :: 0 <= k < |ws| ==> ws[k] != [] && AllAlnum(ws[k])
    ensures s != [] && IsSlugAlnum(s[0]) ==> ws != []
    decreases |s|
  {
    if s == [] then []
    else if IsSlugAlnum(s[0]) then
      AlnumRunAll(s);
      [s[..AlnumRun(s)]] + Words(s[AlnumRun(s)..])
    else Words(s[NonAlnumRun(s)..])
  }

  /** Words joined with single dashes. */
  function JoinDash(ws: seq<string>): string {
    if ws == [] then [] else if |ws| == 1 then ws[0] else ws[0] + "-" + JoinDash(ws[1..])
  }

  function DashIf(b: bool): string {
    if b then "-" else ""
  }

  /** The `[a-z0-9]` characters of a text, in order. */
  function AlnumOnly(s: string): string {
    if s == [] then [] else (if IsSlugAlnum(s[0]) then [s[0]] else []) + AlnumOnly(s[1..])
  }

  function Concat(ws: seq<string>): string {
    if ws == [] then [] else ws[0] + Concat(ws[1..])
  }

  /** `.replace(/[^a-z0-9]+/g, "-")`: each maximal run of characters outside
      `[a-z0-9]` becomes a single dash. */
  function CollapseRuns(s: string): (r: string)
    ensures SlugChars(r) && NoDoubleDash(r)
    ensures s == [] <==> r == []
    ensures s != [] && IsSlugAlnum(s[0]) ==> r[0] == s[0]
    ensures s != [] && !IsSlugAlnum(s[0]) ==> r[0] == '-'
    decreases |s|
  {
    if s == [] then []
    else if IsSlugAlnum(s[0]) then [s[0]] + CollapseRuns(s[1..])
    else "-" + CollapseRuns(s[NonAlnumRun(s)..])
  }

  function DropLeadingDashes(s: string): (r: string)
    ensures |r| <= |s| && r == s[|s| - |r|..]
    ensures r != [] ==> r[0] != '-'
    ensures forall i :: 0 <= i < |s| - |r| ==> s[i] == '-'
  {
    if s != [] && s[0] == '-' then DropLeadingDashes(s[1..]) else s
  }

  function DropTrailingDashes(s: string): (r: string)
    ensures |r| <= |s| && r == s[..|r|]
    ensures r != [] ==> r[|r| - 1] != '-'
    ensures forall i :: |r| <= i < |s| ==> s[i] == '-'
  {
    if s != [] && s[|s| - 1] == '-' then DropTrailingDashes(s[..|s| - 1]) else s
  }

  /** `slugify`: trim, lower-case, collapse every run of characters outside
      `[a-z0-9]` into one dash, then drop leading and trailing dashes. The
      result is the words of the trimmed, lower-cased text joined with
      single dashes. */
  function Slugify(text: string): (r: string)
    ensures r == JoinDash(Words(ToLowerAscii(Trim(text))))
  {
    var s := ToLowerAscii(Trim(text));
    StripCollapsedIsJoinedWords(s);
    DropTrailingDashes(DropLeadingDashes(CollapseRuns(s)))
  }

  // ---------------------------------------------------------------------
  // slugify against its reference description

  lemma AllAlnumSuffix(w: string)
    requires w != [] && AllAlnum(w)
    ensures AllAlnum(w[1..]) && IsSlugAlnum(w[0])
  {
    assert forall i :: 0 <= i < |w| - 1 ==> w[1..][i] == w[i + 1];
  }

  /** `CollapseRuns` copies a leading run of `[a-z0-9]` as it is. */
  lemma {:induction false} CollapseAlnumPrefix(s: string, k: nat)
    requires k <= |s|
    requires AllAlnum(s[..k])
    ensures CollapseRuns(s) == s[..k] + CollapseRuns(s[k..])
    decreases k
  {
    if k == 0 {
      assert s[..0] == [] && s[0..] == s;
    } else {
      var t := s[1..];
      assert s[..k][0] == s[0];
      assert t[..k - 1] == s[..k][1..];
      AllAlnumSuffix(s[..k]);
      CollapseAlnumPrefix(t, k - 1);
      assert t[k - 1..] == s[k..];
      assert [s[0]] + t[..k - 1] == s[..k];
      assert CollapseRuns(s) == [s[0]] + (t[..k - 1] + CollapseRuns(s[k..]));
      ConcatAssoc([s[0]], t[..k - 1], CollapseRuns(s[k..]));
    }
  }

  /** A text that is empty or starts with a word collapses to its words
      joined by dashes, plus one dash when it ends outside a word. */
  lemma {:induction false} CollapseFromWord(s: string)
    requires s == [] || IsSlugAlnum(s[0])
    ensures CollapseRuns(s) == JoinDash(Words(s)) + DashIf(s != [] && !IsSlugAlnum(s[|s| - 1]))
    decreases |s|, 1
  {
    if s == [] {
      assert JoinDash(Words(s)) + DashIf(false) == [];
    } else {
      var k := AlnumRun(s);
      var w := s[..k];
      var rest := s[k..];
      AlnumRunAll(s);
      CollapseAlnumPrefix(s, k);
      assert Words(s) == [w] + Words(rest);
      CollapseFromGap(rest);
      if rest == [] {
        assert s[|s| - 1] == w[k - 1];
        assert CollapseRuns(s) == w;
        assert JoinDash(Words(s)) == w;
        assert w + DashIf(false) == w;
      } else {
        assert s[|s| - 1] == rest[|rest| - 1];
        var d := DashIf(!IsSlugAlnum(s[|s| - 1]));
        if Words(rest) == [] {
          assert CollapseRuns(rest) == "-" + [] + DashIf(false);
          assert CollapseRuns(s) == w + "-";
          assert d == "-";
          assert JoinDash(Words(s)) == w;
        } else {
          var j := JoinDash(Words(rest));
          assert CollapseRuns(rest) == "-" + j + d;
          ConcatAssoc("-", j, d);
          GlueWord(CollapseRuns(s), w, j, Words(rest), d);
        }
      }
    }
  }

  /** A text that is empty or starts outside a word collapses to one dash
      for that run, then its words joined by dashes, plus one dash when it
      ends outside a word after at least one word. */
  lemma {:induction false} CollapseFromGap(r: string)
    requires r == [] || !IsSlugAlnum(r[0])
    ensures CollapseRuns(r) ==
      DashIf(r != []) + JoinDash(Words(r)) + DashIf(Words(r) != [] && !IsSlugAlnum(r[|r| - 1]))
    ensures r != [] && Words(r) == [] ==> !IsSlugAlnum(r[|r| - 1])
    decreases |r|, 0
  {
    if r == [] {
      assert DashIf(false) + JoinDash([]) + DashIf(false) == [];
    } else {
      var m := NonAlnumRun(r);
      var r2 := r[m..];
      assert CollapseRuns(r) == "-" + CollapseRuns(r2);
      assert Words(r) == Words(r2);
      if r2 == [] {
        NonAlnumRunAll(r);
        assert !IsSlugAlnum(r[m - 1]);
        CollapseFromWord(r2);
        assert "-" + JoinDash([]) + DashIf(false) == "-";
      } else {
        assert r2[|r2| - 1] == r[|r| - 1];
        CollapseFromWord(r2);
        ConcatAssoc("-", JoinDash(Words(r2)), DashIf(!IsSlugAlnum(r[|r| - 1])));
      }
    }
  }

  /** One word in front of further dash-joined words. */
  lemma {:induction false} GlueWord(c: string, w: string, j: string, ws: seq<string>, d: string)
    requires ws != [] && j == JoinDash(ws)
    requires c == w + ("-" + (j + d))
    ensures c == JoinDash([w] + ws) + d
  {
    JoinDashCons(w, ws);
    ConcatAssoc("-", j, d);
    ConcatAssoc(w, "-" + j, d);
    assert w + "-" + j == w + ("-" + j);
  }

  lemma {:induction false} ConcatAssoc(a: string, b: string, c: string)
    ensures a + (b + c) == a + b + c
  {
  }

  lemma {:induction false} JoinDashCons(w: string, ws: seq<string>)
    requires ws != []
    ensures JoinDash([w] + ws) == w + "-" + JoinDash(ws)
  {
    assert ([w] + ws)[0] == w && ([w] + ws)[1..] == ws;
  }

  /** `.replace(/[^a-z0-9]+/g, "-")` against the reference description: the
      words of the text joined by single dashes, with one more dash in front
      when the text starts outside a word and one more at the end when it
      ends outside a word after at least one word. */
  lemma {:induction false} CollapseRunsIsJoinedWords(s: string)
    ensures CollapseRuns(s) ==
      DashIf(s != [] && !IsSlugAlnum(s[0])) + JoinDash(Words(s))
        + DashIf(Words(s) != [] && !IsSlugAlnum(s[|s| - 1]))
  {
    if s != [] && IsSlugAlnum(s[0]) {
      CollapseFromWord(s);
      var j := JoinDash(Words(s));
      var d := DashIf(!IsSlugAlnum(s[|s| - 1]));
      assert DashIf(false) + j + d == j + d;
    } else {
      CollapseFromGap(s);
    }
  }

  /** Dash-joined words start and end with a word character. */
  lemma {:induction false} JoinDashEnds(ws: seq<string>)
    requires forall k :: 0 <= k < |ws| ==> ws[k] != [] && AllAlnum(ws[k])
    ensures var j := JoinDash(ws); ws != [] ==> j != [] && IsSlugAlnum(j[0]) && IsSlugAlnum(j[|j| - 1])
  {
    if |ws| >= 2 {
      JoinDashEnds(ws[1..]);
    }
  }

  lemma {:induction false} DropOneLeadingDash(a: string, x: string)
    requires a == [] || a == "-"
    requires x != [] ==> x[0] != '-'
    ensures DropLeadingDashes(a + x) == x
  {
    if a == [] {
      assert a + x == x;
    } else {
      assert (a + x)[0] == '-' && (a + x)[1..] == x;
    }
  }

  lemma {:induction false} DropOneTrailingDash(x: string, b: string)
    requires b == [] || b == "-"
    requires x != [] && x[|x| - 1] != '-'
    ensures DropTrailingDashes(x + b) == x
  {
    if b == [] {
      assert x + b == x;
    } else {
      assert (x + b)[|x|] == '-' && (x + b)[..|x|] == x;
    }
  }

  /** At most one dash on either side of dash-joined words is stripped
      away, leaving the words. */
  lemma {:induction false} StripOuterDashes(a: string, j: string, b: string)
    requires a == [] || a == "-"
    requires b == [] || b == "-"
    requires j == [] ==> b == []
    requires j != [] ==> IsSlugAlnum(j[0]) && IsSlugAlnum(j[|j| - 1])
    ensures DropTrailingDashes(DropLeadingDashes(a + j + b)) == j
  {
    if j == [] {
      assert a + j + b == a + [];
      DropOneLeadingDash(a, []);
    } else {
      ConcatAssoc(a, j, b);
      assert (j + b)[0] == j[0];
      DropOneLeadingDash(a, j + b);
      DropOneTrailingDash(j, b);
    }
  }

  /** Dropping the dashes at both ends of the collapsed text leaves exactly
      its words joined by dashes. */
  lemma {:induction false} StripCollapsedIsJoinedWords(s: string)
    ensures DropTrailingDashes(DropLeadingDashes(CollapseRuns(s))) == JoinDash(Words(s))
  {
    CollapseRunsIsJoinedWords(s);
    JoinDashEnds(Words(s));
    StripOuterDashes(DashIf(s != [] && !IsSlugAlnum(s[0])), JoinDash(Words(s)),
      DashIf(Words(s) != [] && !IsSlugAlnum(s[|s| - 1])));
  }

  lemma {:induction false} AlnumOnlyAppend(a: string, b: string)
    ensures AlnumOnly(a + b) == AlnumOnly(a) + AlnumOnly(b)
    decreases |a|
  {
    if a == [] {
      assert a + b == b;
    } else {
      var h := if IsSlugAlnum(a[0]) then [a[0]] else [];
      assert (a + b)[0] == a[0] && (a + b)[1..] == a[1..] + b;
      assert AlnumOnly(a + b) == h + AlnumOnly(a[1..] + b);
      AlnumOnlyAppend(a[1..], b);
      ConcatAssoc(h, AlnumOnly(a[1..]), AlnumOnly(b));
    }
  }

  lemma {:induction false} AlnumOnlyOfWord(w: string)
    requires AllAlnum(w)
    ensures AlnumOnly(w) == w
    decreases |w|
  {
    if w != [] {
      AlnumOnlyOfWord(w[1..]);
    }
  }

  lemma {:induction false} AlnumOnlySkipsRun(s: string)
    ensures AlnumOnly(s) == AlnumOnly(s[NonAlnumRun(s)..])
    decreases |s|
  {
    if s != [] && !IsSlugAlnum(s[0]) {
      AlnumOnlySkipsRun(s[1..]);
      assert s[1..][NonAlnumRun(s[1..])..] == s[NonAlnumRun(s)..];
    }
  }

  /** The words of a text hold exactly its `[a-z0-9]` characters, in order:
      nothing is lost and nothing is added. */
  lemma {:induction false} WordsAreTheAlnums(s: string)
    ensures Concat(Words(s)) == AlnumOnly(s)
    decreases |s|
  {
    if s != [] {
      if IsSlugAlnum(s[0]) {
        var k := AlnumRun(s);
        assert s == s[..k] + s[k..];
        AlnumOnlyAppend(s[..k], s[k..]);
        AlnumRunAll(s);
        AlnumOnlyOfWord(s[..k]);
        WordsAreTheAlnums(s[k..]);
        assert ([s[..k]] + Words(s[k..]))[1..] == Words(s[k..]);
      } else {
        AlnumOnlySkipsRun(s);
        WordsAreTheAlnums(s[NonAlnumRun(s)..]);
      }
    }
  }

  /** Joining words with dashes adds no `[a-z0-9]` character. */
  lemma {:induction false} JoinDashAlnums(ws: seq<string>)
    requires forall k :: 0 <= k < |ws| ==> AllAlnum(ws[k])
    ensures AlnumOnly(JoinDash(ws)) == Concat(ws)
  {
    if ws != [] {
      AlnumOnlyOfWord(ws[0]);
      if |ws| == 1 {
        assert Concat(ws[1..]) == [];
      } else {
        var j := JoinDash(ws[1..]);
        JoinDashAlnums(ws[1..]);
        AlnumOnlyAppend(ws[0] + "-", j);
        AlnumOnlyAppend(ws[0], "-");
        assert AlnumOnly("-") == [] by {
          assert "-"[1..] == [];
        }
        calc {
          AlnumOnly(JoinDash(ws));
          AlnumOnly(ws[0] + "-" + j);
          AlnumOnly(ws[0] + "-") + AlnumOnly(j);
          ws[0] + Concat(ws[1..]);
        }
      }
    }
  }

  /** The run replacement keeps every `[a-z0-9]` character, in order, and
      adds none. */
  lemma {:induction false} CollapseKeepsAlnums(s: string)
    ensures AlnumOnly(CollapseRuns(s)) == AlnumOnly(s)
  {
    CollapseRunsIsJoinedWords(s);
    AlnumOnlyIgnoresDashes(DashIf(s != [] && !IsSlugAlnum(s[0])), JoinDash(Words(s)),
      DashIf(Words(s) != [] && !IsSlugAlnum(s[|s| - 1])));
    JoinDashAlnums(Words(s));
    WordsAreTheAlnums(s);
  }

  lemma {:induction false} AlnumOnlyIgnoresDashes(a: string, j: string, b: string)
    requires a == [] || a == "-"
    requires b == [] || b == "-"
    ensures AlnumOnly(a + j + b) == AlnumOnly(j)
  {
    AlnumOnlyAppend(a + j, b);
    AlnumOnlyAppend(a, j);
    assert AlnumOnly("-") == [] by {
      assert "-"[1..] == [];
    }
  }

  /** `slugify` keeps every `[a-z0-9]` character of the trimmed,
      lower-cased text, in order, and adds none. */
  lemma {:induction false} SlugifyKeepsAlnums(text: string)
    ensures AlnumOnly(Slugify(text)) == AlnumOnly(ToLowerAscii(Trim(text)))
  {
    var s := ToLowerAscii(Trim(text));
    JoinDashAlnums(Words(s));
    WordsAreTheAlnums(s);
  }

  /** Cutting characters off either end keeps a string within `[a-z0-9-]`
      and free of double dashes. */
  lemma SliceKeepsSlugText(s: string, a: nat, b: nat)
    requires a <= b <= |s|
    requires SlugChars(s) && NoDoubleDash(s)
    ensures SlugChars(s[a..b]) && NoDoubleDash(s[a..b])
  {
    var t := s[a..b];
    assert forall i :: 0 <= i < |t| ==> t[i] == s[a + i];
  }

  /** Dropping the dashes at both ends of a collapsed string leaves a slug
      or nothing. */
  lemma StripDashesShape(c: string)
    requires SlugChars(c) && NoDoubleDash(c)
    ensures var r := DropTrailingDashes(DropLeadingDashes(c)); r == [] || SlugShape(r)
  {
    var l := DropLeadingDashes(c);
    var r := DropTrailingDashes(l);
    SliceKeepsSlugText(c, |c| - |l|, |c|);
    SliceKeepsSlugText(l, 0, |r|);
    if r != [] {
      assert r[0] == l[0];
    }
  }

  /** The output of `slugify` uses only `[a-z0-9-]`, has no dash at either
      end, never two dashes in a row, and when non-empty is accepted by the
      slug regex. */
  lemma SlugifyIsSlug(text: string)
    ensures var r := Slugify(text);
      && SlugChars(r)
      && (r != [] ==> r[0] != '-' && r[|r| - 1] != '-')
      && NoDoubleDash(r)
      && (r != [] ==> MatchesSlugRegex(r))
  {
    var c := CollapseRuns(ToLowerAscii(Trim(text)));
    StripDashesShape(c);
    var r := DropTrailingDashes(DropLeadingDashes(c));
    assert r == Slugify(text);
    SlugRegexIffShape(r);
  }

  /** A slug, and the empty string, pass through `CollapseRuns` unchanged. */
  lemma {:induction false} CollapseKeepsSlugText(s: string)
    requires SlugChars(s) && NoDoubleDash(s)
    requires s != [] ==> s[|s| - 1] != '-'
    ensures CollapseRuns(s) == s
    decreases |s|
  {
    if s != [] {
      var rest := s[1..];
      assert SlugChars(rest) && NoDoubleDash(rest);
      if !IsSlugAlnum(s[0]) {
        assert s[0] == '-';
        assert |s| > 1 && s[1] != '-';
        assert NonAlnumRun(s) == 1;
      }
      CollapseKeepsSlugText(rest);
    }
  }

  /** `slugify` leaves a slug (and the empty string) as it is. */
  lemma SlugifyFixesSlugs(s: string)
    requires s == [] || SlugShape(s)
    ensures Slugify(s) == s
  {
    SlugTextUnchangedByCase(s);
    CollapseKeepsSlugText(s);
  }

  /** Trimming and ASCII lower-casing leave a slug (or nothing) as it is. */
  lemma SlugTextUnchangedByCase(s: string)
    requires s == [] || SlugShape(s)
    ensures ToLowerAscii(Trim(s)) == s
  {
    if s != [] {
      assert !IsJsSpace(s[0]) && !IsJsSpace(s[|s| - 1]);
      assert LeadingSpaces(s) == 0;
      assert TrimStart(s) == s;
      assert TrailingSpaces(s) == 0;
    }
    assert Trim(s) == s;
    forall i | 0 <= i < |s| ensures LowerAscii(s[i]) == s[i] {
      assert IsSlugAlnum(s[i]) || s[i] == '-';
    }
  }

  /** `slugify` is idempotent. */
  lemma SlugifyIdempotent(text: string)
    ensures Slugify(Slugify(text)) == Slugify(text)
  {
    SlugifyIsSlug(text);
    SlugifyFixesSlugs(Slugify(text));
  }

  // ---------------------------------------------------------------------
  // Create-course schema

  datatype PricingInput = PricingInput(
    kind: string,
    amount: Option<real>,
    currency: Option<string>,
    discountPercentage: Option<real>,
    discountValidUntil: Option<int>)

  /** A create-course request body, its fields already typed; keys the
      schema does not name are not represented because parsing strips
      them. */
  datatype CourseInput = CourseInput(
    title: string,
    slug: string,
    description: string,
    category: string,
    level: string,
    pricing: PricingInput,
    subCategory: Option<string>,
    tags: Option<seq<string>>,
    requirements: Option<seq<string>>,
    whatYouWillLearn: Option<seq<string>>,
    targetAudience: Option<seq<string>>)

  /** Parsed pricing: an optional field the body leaves out stays absent
      (the `.optional()` wrapper returns before its inner `.default`). */
  datatype ParsedPricing = ParsedPricing(
    kind: PricingType,
    amount: Option<real>,
    currency: Option<string>,
    discountPercentage: Option<real>,
    discountValidUntil: Option<int>)

  datatype ParsedCourse = ParsedCourse(
    title: string,
    slug: string,
    description: string,
    category: Category,
    level: Level,
    pricing: ParsedPricing,
    subCategory: Option<string>,
    tags: Option<seq<string>>,
    requirements: Option<seq<string>>,
    whatYouWillLearn: Option<seq<string>>,
    targetAudience: Option<seq<string>>)

  const MIN_TITLE := 3
  const MAX_TITLE := 100
  const MIN_DESCRIPTION := 10
  const MAX_DESCRIPTION := 1000
  const CURRENCY_LENGTH := 3
  const MAX_DISCOUNT := 100.0

  /** The bounds of the create-course schema; string lengths are JavaScript
      lengths (UTF-16 code units). `discountValidUntil` is `z.date()`, which
      accepts only `Date` objects, and a body decoded by `express.json()`
      holds none, so any value supplied for it fails. */
  predicate WithinBounds(p: CourseInput) {
    && MIN_TITLE <= Utf16Length(p.title) <= MAX_TITLE
    && MatchesSlugRegex(p.slug)
    && MIN_DESCRIPTION <= Utf16Length(p.description) <= MAX_DESCRIPTION
    && ParseCategory(p.category).Some?
    && ParseLevel(p.level).Some?
    && ParsePricingType(p.pricing.kind).Some?
    && (p.pricing.amount.Some? ==> p.pricing.amount.value >= 0.0)
    && (p.pricing.currency.Some? ==> Utf16Length(p.pricing.currency.value) == CURRENCY_LENGTH)
    && (p.pricing.discountPercentage.Some? ==>
          0.0 <= p.pricing.discountPercentage.value <= MAX_DISCOUNT)
    && p.pricing.discountValidUntil.None?
  }

  /** `createCourseSchema.safeParse`: a parsed course when every bound holds,
      nothing otherwise; the parsed course carries the input's values with
      the enumerations decoded. */
  function ParseCreateCourse(p: CourseInput): (r: Option<ParsedCourse>)
    ensures r.Some? <==> WithinBounds(p)
    ensures p.pricing.discountValidUntil.Some? ==> r.None?
    ensures r.Some? ==>
      && r.value.title == p.title && r.value.slug == p.slug && r.value.description == p.description
      && Some(r.value.category) == ParseCategory(p.category)
      && Some(r.value.level) == ParseLevel(p.level)
      && Some(r.value.pricing.kind) == ParsePricingType(p.pricing.kind)
      && r.value.pricing.amount == p.pricing.amount
      && r.value.pricing.currency == p.pricing.currency
      && r.value.pricing.discountPercentage == p.pricing.discountPercentage
      && r.value.pricing.discountValidUntil == p.pricing.discountValidUntil
      && r.value.subCategory == p.subCategory && r.value.tags == p.tags
      && r.value.requirements == p.requirements
      && r.value.whatYouWillLearn == p.whatYouWillLearn
      && r.value.targetAudience == p.targetAudience
  {
    if !(MIN_TITLE <= Utf16Length(p.title) <= MAX_TITLE) then None
    else if !MatchesSlugRegex(p.slug) then None
    else if !(MIN_DESCRIPTION <= Utf16Length(p.description) <= MAX_DESCRIPTION) then None
    else match (ParseCategory(p.category), ParseLevel(p.level), ParsePricingType(p.pricing.kind))
      case (Some(c), Some(l), Some(k)) =>
        var pr := p.pricing;
        if pr.amount.Some? && pr.amount.value < 0.0 then None
        else if pr.currency.Some? && Utf16Length(pr.currency.value) != CURRENCY_LENGTH then None
        else if pr.discountPercentage.Some? && !(0.0 <= pr.discountPercentage.value <= MAX_DISCOUNT) then None
        else if pr.discountValidUntil.Some? then None
        else Some(ParsedCourse(
          p.title, p.slug, p.description, c, l,
          ParsedPricing(k, pr.amount, pr.currency, pr.discountPercentage, pr.discountValidUntil),
          p.subCategory, p.tags, p.requirements, p.whatYouWillLearn, p.targetAudience))
      case _ => None
  }
}

=== FILE: email_config.dfy ===
/** Issuing an email-verification code (config/email.config.js,
    `sendOtpVerificationMail`): refuse while a code is live, otherwise draw a
    six-digit code, store it, then mail it. The random draw and the mail
    transport's outcome are inputs. */
module EmailConfig {
  import opened Js
  import opened Http
  import opened Models
  import opened Store

  /** A value of `Math.random()`. */
  type Draw = r: real | 0.0 <= r < 1.0

  const OTP_MIN := 100000
  const OTP_MAX := 999999

  /** `Math.floor(100000 + Math.random() * 900000)`: always six digits. */
  function OtpCode(draw: Draw): (code: int)
    ensures OTP_MIN <= code <= OTP_MAX
  {
    var x := 100000.0 + draw * 900000.0;
    assert 100000.0 <= x < 1000000.0;
    x.Floor
  }

  /** The mailer's report to its caller. */
  datatype OtpResult = OtpResult(success: bool, statusCode: int, message: string)

  /** The filter `{ userId }` against the code store at instant `now`. */
  function LiveOtpOf(uid: UserId, now: nat): OtpRecord -> bool {
    (r: OtpRecord) => r.userId == uid && OtpLive(r, now)
  }

  predicate HasLiveOtp(otps: seq<OtpRecord>, uid: UserId, now: nat) {
    FindFirst(otps, LiveOtpOf(uid, now)).Some?
  }

  datatype OtpOutcome = OtpOutcome(otps: seq<OtpRecord>, result: OtpResult)

  const MSG_TOO_MANY := "Too many requests. Please wait before requesting a new OTP."
  const MSG_OTP_SENT := "OTP sent successfully"
  const MSG_OTP_FAILED := "Failed to send OTP"

  /** `sendOtpVerificationMail(user)`. While the user has a live code the
      call is refused with 429 and changes nothing. Otherwise exactly one
      record is added, holding the decimal text of a six-digit code and the
      current instant; it is written before the mail goes out, so it stays
      when the mail fails (500) as well as when it succeeds (200). */
  function SendOtpVerificationMail(otps: seq<OtpRecord>, user: User, now: nat, draw: Draw, mailOk: bool): (out: OtpOutcome)
    ensures HasLiveOtp(otps, user.id, now) ==>
      out == OtpOutcome(otps, OtpResult(false, TOO_MANY_REQUESTS, MSG_TOO_MANY))
    ensures !HasLiveOtp(otps, user.id, now) ==>
      && |out.otps| == |otps| + 1
      && out.otps[..|otps|] == otps
      && out.otps[|otps|].userId == user.id
      && out.otps[|otps|].createdAt == now
      && out.otps[|otps|].otp == NatToDecimal(OtpCode(draw))
      && OtpLive(out.otps[|otps|], now)
    ensures out.result.success <==> !HasLiveOtp(otps, user.id, now) && mailOk
    ensures out.result.success ==> out.result == OtpResult(true, OK, MSG_OTP_SENT)
    ensures !HasLiveOtp(otps, user.id, now) && !mailOk ==>
      out.result == OtpResult(false, INTERNAL_SERVER_ERROR, MSG_OTP_FAILED)
  {
    if HasLiveOtp(otps, user.id, now) then
      OtpOutcome(otps, OtpResult(false, TOO_MANY_REQUESTS, MSG_TOO_MANY))
    else
      var code := OtpCode(draw);
      var otps' := otps + [OtpRecord(user.id, NatToDecimal(code), now)];
      if mailOk then OtpOutcome(otps', OtpResult(true, OK, MSG_OTP_SENT))
      else OtpOutcome(otps', OtpResult(false, INTERNAL_SERVER_ERROR, MSG_OTP_FAILED))
  }

  /** No user has two live codes at the same instant. */
  ghost predicate AtMostOneLiveOtp(otps: seq<OtpRecord>, now: nat) {
    forall i, j :: 0 <= i < j < |otps| && OtpLive(otps[i], now) && OtpLive(otps[j], now) ==>
      otps[i].userId != otps[j].userId
  }

  /** Issuing a code keeps at most one live code per user. */
  lemma SendKeepsOneLiveOtp(otps: seq<OtpRecord>, user: User, now: nat, draw: Draw, mailOk: bool)
    requires AtMostOneLiveOtp(otps, now)
    ensures AtMostOneLiveOtp(SendOtpVerificationMail(otps, user, now, draw, mailOk).otps, now)
  {
    var out := SendOtpVerificationMail(otps, user, now, draw, mailOk);
    if !HasLiveOtp(otps, user.id, now) {
      var n := |otps|;
      forall i | 0 <= i < n && OtpLive(out.otps[i], now)
        ensures out.otps[i].userId != user.id
      {
        assert out.otps[i] == otps[i];
        assert !LiveOtpOf(user.id, now)(otps[i]);
      }
    }
  }

  /** Once issued, the stored text reads back, through `Number(...)`, as the
      drawn six-digit code. */
  lemma StoredCodeReadsBack(draw: Draw)
    ensures StringToNumber(NatToDecimal(OtpCode(draw))) == Finite(OtpCode(draw) as real)
  {
    DigitStringNumber(0, OtpCode(draw));
    assert Zeros(0) + NatToDecimal(OtpCode(draw)) == NatToDecimal(OtpCode(draw));
  }
}

=== FILE: externals.dfy ===
/** The libraries the handlers call but that are not part of this model
    (password hashing, token signing and verification, the `validator`
    predicates, the Unicode letter class), as uninterpreted functions bundled
    in one value that every handler receives. */
module Externals {
  import opened Models

  /** What a verified token carries: the owner's id. */
  datatype Claims = Claims(id: UserId)

  /** `jwt.verify`: the decoded payload, or one of the two failure kinds a
      caller can tell apart (`TokenExpiredError` versus any other error). */
  datatype JwtOutcome = Verified(claims: Claims) | Expired | Invalid

  datatype Lib = Lib(
    /** `validator.isEmail` */
    isEmail: string -> bool,
    /** `validator.isStrongPassword` with its default options */
    isStrongPassword: string -> bool,
    /** `validator.isURL` with its default options */
    isURL: string -> bool,
    /** membership in the Unicode class `\p{L}` */
    isLetter: char -> bool,
    /** `bcrypt.hash(password, salt)`; the salt is the random input */
    hash: (string, nat) -> string,
    /** `bcrypt.compare(password, hash)` */
    compare: (string, string) -> bool,
    /** `jwt.verify` with the access-token secret (the clock it reads is folded in) */
    verifyAccess: string -> JwtOutcome,
    /** `jwt.verify` with the refresh-token secret */
    verifyRefresh: string -> JwtOutcome,
    /** the local expiry check applied to a refresh token before verification */
    isTokenExpired: string -> bool)
}

=== FILE: http.dfy ===
/** Status codes, the shape of a reply, cookie effects and middleware
    decisions (templates/errorHandler.js and the top-level error handler). */
module Http {
  import opened Js

  const OK := 200
  const BAD_REQUEST := 400
  const UNAUTHORIZED := 401
  const FORBIDDEN := 403
  const NOT_FOUND := 404
  const CONFLICT := 409
  const UNPROCESSABLE_ENTITY := 422
  /** Written as a literal by the OTP mailer rather than taken from the table. */
  const TOO_MANY_REQUESTS := 429
  const INTERNAL_SERVER_ERROR := 500
  const SERVICE_UNAVAILABLE := 503

  /** The status the top-level handler reports for an error: its own
      status code when it has a truthy one, 500 otherwise (an exception
      thrown by a library or the database carries none). */
  function ReportedStatus(statusCode: Option<int>): (code: int)
    ensures statusCode.Some? && statusCode.value != 0 ==> code == statusCode.value
    ensures statusCode.None? || statusCode.value == 0 ==> code == INTERNAL_SERVER_ERROR
  {
    match statusCode
    case Some(c) => if c != 0 then c else INTERNAL_SERVER_ERROR
    case None => INTERNAL_SERVER_ERROR
  }

  /** The two tokens a successful login or refresh hands out, each with the
      expiry the token issuer reported. */
  datatype TokenPair = TokenPair(
    accessToken: string, accessTokenExp: nat,
    refreshToken: string, refreshTokenExp: nat)

  /** What a reply does to the client's `accessToken` / `refreshToken`
      cookies. */
  datatype CookieEffect = KeepCookies | SetTokens(tokens: TokenPair) | ClearTokens

  /** A reply: status, message, cookie effect and an optional body. */
  datatype Reply<B> = Reply(status: int, message: string, cookies: CookieEffect, body: Option<B>)

  /** An error reply produced by `next(new ErrorHandler(code, message))`. */
  function Error<B>(code: int, message: string): (r: Reply<B>)
    ensures r.status == code && r.message == message
    ensures r.cookies == KeepCookies && r.body == None
  {
    Reply(code, message, KeepCookies, None)
  }

  /** An unexpected fault (a rejected database write, say) caught by the
      request wrapper and reported by the top-level handler. */
  function Fault<B>(): (r: Reply<B>)
    ensures r.status == 500 && r.cookies == KeepCookies
  {
    Error(ReportedStatus(None), "Internal server error")
  }

  /** Outcome of a middleware: stop with an error, possibly clearing the
      token cookies, or hand a value on to the next stage. */
  datatype Decision<+T> = Reject(status: int, message: string, clearsCookies: bool) | Continue(value: T)

  /** The client's cookie jar, as far as the two token cookies go. */
  datatype Jar = Jar(accessToken: Option<string>, refreshToken: Option<string>)

  /** The jar after the browser applies a reply's cookie effect. */
  function ApplyCookies(jar: Jar, effect: CookieEffect): (j: Jar)
    ensures effect.KeepCookies? ==> j == jar
    ensures effect.ClearTokens? ==> j.accessToken.None? && j.refreshToken.None?
    ensures effect.SetTokens? ==>
      j.accessToken == Some(effect.tokens.accessToken) && j.refreshToken == Some(effect.tokens.refreshToken)
  {
    match effect
    case KeepCookies => jar
    case ClearTokens => Jar(None, None)
    case SetTokens(t) => Jar(Some(t.accessToken), Some(t.refreshToken))
  }
}

=== FILE: is_admin.dfy ===
/** The role gate in front of the admin routes (middleware/isAdmin.js). */
module AdminGate {
  import opened Js
  import opened Http
  import opened Models

  const MSG_LOGIN := "please login to continue"
  const MSG_ADMINS_ONLY := "Access denied: Admins only"

  /** No authenticated user: 401. A user whose role is not admin: 403.
      An admin: continue. The first check takes precedence, and exactly one
      of the three happens. */
  function IsAdmin(user: Option<User>): (d: Decision<User>)
    ensures user.None? ==> d == Reject(UNAUTHORIZED, MSG_LOGIN, false)
    ensures user.Some? && user.value.role != Admin ==> d == Reject(FORBIDDEN, MSG_ADMINS_ONLY, false)
    ensures d.Continue? <==> user.Some? && user.value.role == Admin
    ensures d.Continue? ==> d.value == user.value
  {
    match user
    case None => Reject(UNAUTHORIZED, MSG_LOGIN, false)
    case Some(u) => if u.role != Admin then Reject(FORBIDDEN, MSG_ADMINS_ONLY, false) else Continue(u)
  }
}

=== FILE: js.dfy ===
/** The JavaScript built-ins the backend relies on, stated over Dafny strings
    (sequences of Unicode scalar values): `trim`, ASCII lower-casing, UTF-16
    `length`, truthiness of a string field, integer `toString`, `Number(...)`
    and `parseInt(...)`. */
module Js {

  datatype Option<+T> = None | Some(value: T)

  /** ECMAScript WhiteSpace or LineTerminator: exactly the characters
      `String.prototype.trim` removes and the regular-expression class `\s`
      matches. */
  predicate IsJsSpace(c: char) {
    || c == '\t' || c == '\n' || c == '\U{000B}' || c == '\U{000C}' || c == '\r'
    || c == ' ' || c == '\U{00A0}' || c == '\U{1680}'
    || ('\U{2000}' <= c <= '\U{200A}')
    || c == '\U{2028}' || c == '\U{2029}' || c == '\U{202F}' || c == '\U{205F}'
    || c == '\U{3000}' || c == '\U{FEFF}'
  }

  /** Number of whitespace characters at the front of `s`. */
  function LeadingSpaces(s: string): (n: nat)
    ensures n <= |s|
    ensures forall i :: 0 <= i < n ==> IsJsSpace(s[i])
    ensures n < |s| ==> !IsJsSpace(s[n])
  {
    if s != [] && IsJsSpace(s[0]) then 1 + LeadingSpaces(s[1..]) else 0
  }

  /** Number of whitespace characters at the back of `s`. */
  function TrailingSpaces(s: string): (n: nat)
    ensures n <= |s|
    ensures forall i :: |s| - n <= i < |s| ==> IsJsSpace(s[i])
    ensures n < |s| ==> !IsJsSpace(s[|s| - 1 - n])
  {
    if s != [] && IsJsSpace(s[|s| - 1]) then 1 + TrailingSpaces(s[..|s| - 1]) else 0
  }

  /** `String.prototype.trimStart`, the first step of `parseInt`. */
  function TrimStart(s: string): string {
    s[LeadingSpaces(s)..]
  }

  /** `String.prototype.trim`: the slice of `s` left once the leading and the
      trailing whitespace are removed. */
  function Trim(s: string): (r: string)
    ensures |r| <= |s|
    ensures r == [] <==> forall i :: 0 <= i < |s| ==> IsJsSpace(s[i])
    ensures r != [] ==> !IsJsSpace(r[0]) && !IsJsSpace(r[|r| - 1])
    ensures LeadingSpaces(s) + |r| <= |s|
    ensures r == s[LeadingSpaces(s)..LeadingSpaces(s) + |r|]
    ensures forall i :: LeadingSpaces(s) + |r| <= i < |s| ==> IsJsSpace(s[i])
  {
    var t := TrimStart(s);
    t[..|t| - TrailingSpaces(t)]
  }

  /** Trimming twice is trimming once. */
  lemma TrimIdempotent(s: string)
    ensures Trim(Trim(s)) == Trim(s)
  {
    var r := Trim(s);
    assert LeadingSpaces(r) == 0;
    assert TrailingSpaces(r) == 0;
  }

  /** `toLowerCase` restricted to ASCII: `A`..`Z` map to `a`..`z`, every
      other character is kept. */
  function LowerAscii(c: char): char {
    if 'A' <= c <= 'Z' then (c as int - 'A' as int + 'a' as int) as char else c
  }

  function ToLowerAscii(s: string): (r: string)
    ensures |r| == |s|
    ensures forall i :: 0 <= i < |s| ==> r[i] == LowerAscii(s[i])
  {
    seq(|s|, i requires 0 <= i < |s| => LowerAscii(s[i]))
  }

  /** `.length` of a JavaScript string: UTF-16 code units, so a character
      outside the Basic Multilingual Plane counts twice. */
  function Utf16Length(s: string): (n: nat)
    ensures |s| <= n <= 2 * |s|
  {
    if s == [] then 0
    else (if s[0] as int > 0xFFFF then 2 else 1) + Utf16Length(s[1..])
  }

  /** A string-valued request field used in a boolean position
      (`if (!x)`): absent (`undefined`) and `""` are falsy. */
  predicate Truthy(x: Option<string>) {
    x.Some? && x.value != ""
  }

  // ---------------------------------------------------------------------
  // Digits

  predicate IsDecimalDigit(c: char) {
    '0' <= c <= '9'
  }

  predicate AllDecimal(s: string) {
    forall i :: 0 <= i < |s| ==> IsDecimalDigit(s[i])
  }

  /** Value of a digit character in bases up to 36 (`0`-`9`, then letters
      of either case); 36 for a character that is no digit at all. */
  function DigitOf(c: char): (d: nat)
    ensures d <= 36
    ensures IsDecimalDigit(c) ==> d == c as int - '0' as int
  {
    if '0' <= c <= '9' then c as int - '0' as int
    else if 'a' <= c <= 'z' then c as int - 'a' as int + 10
    else if 'A' <= c <= 'Z' then c as int - 'A' as int + 10
    else 36
  }

  /** Positional value of a digit string in the given base. */
  function DigitsValue(s: string, base: nat): nat {
    if s == [] then 0
    else DigitsValue(s[..|s| - 1], base) * base + DigitOf(s[|s| - 1])
  }

  /** Length of the longest prefix of `s` made of digits valid in `base`. */
  function DigitRun(s: string, base: nat): (n: nat)
    ensures n <= |s|
    ensures forall i :: 0 <= i < n ==> DigitOf(s[i]) < base
    ensures n < |s| ==> DigitOf(s[n]) >= base
  {
    if s != [] && DigitOf(s[0]) < base then 1 + DigitRun(s[1..], base) else 0
  }

  function DecimalDigit(d: nat): (c: char)
    requires d < 10
    ensures IsDecimalDigit(c) && DigitOf(c) == d
  {
    "0123456789"[d]
  }

  /** `Number.prototype.toString()` on a non-negative integer: decimal
      digits, most significant first, no leading zero. */
  function NatToDecimal(n: nat): (s: string)
    ensures |s| >= 1 && AllDecimal(s)
    ensures s[0] == '0' ==> n == 0
  {
    if n < 10 then [DecimalDigit(n)] else NatToDecimal(n / 10) + [DecimalDigit(n % 10)]
  }

  /** Reading back the decimal rendering of `n` gives `n`. */
  lemma {:induction false} DecimalRoundTrip(n: nat)
    ensures DigitsValue(NatToDecimal(n), 10) == n
  {
    var s := NatToDecimal(n);
    if n >= 10 {
      DecimalRoundTrip(n / 10);
      assert s[..|s| - 1] == NatToDecimal(n / 10);
    } else {
      assert s[..|s| - 1] == [];
    }
  }

  /** A leading zero does not change the value of a digit string. */
  lemma {:induction false} LeadingZeroValue(s: string, base: nat)
    ensures DigitsValue("0" + s, base) == DigitsValue(s, base)
  {
    if s != [] {
      var t := "0" + s;
      assert t[..|t| - 1] == "0" + s[..|s| - 1];
      assert t[|t| - 1] == s[|s| - 1];
      LeadingZeroValue(s[..|s| - 1], base);
    } else {
      var t := "0";
      assert t[..|t| - 1] == [];
    }
  }

  function Zeros(k: nat): (z: string)
    ensures |z| == k && forall i :: 0 <= i < k ==> z[i] == '0'
  {
    if k == 0 then "" else "0" + Zeros(k - 1)
  }

  lemma {:induction false} LeadingZerosValue(k: nat, s: string, base: nat)
    ensures DigitsValue(Zeros(k) + s, base) == DigitsValue(s, base)
  {
    if k > 0 {
      assert Zeros(k) + s == "0" + (Zeros(k - 1) + s);
      LeadingZeroValue(Zeros(k - 1) + s, base);
      LeadingZerosValue(k - 1, s, base);
    } else {
      assert Zeros(k) + s == s;
    }
  }

  // ---------------------------------------------------------------------
  // Number(...)

  /** A JSON request value as JavaScript sees it. */
  datatype JsValue = Undefined | Null | Boolean(b: bool) | Number(x: real) | Text(s: string)

  /** A JavaScript number; reals stand for the finite doubles. */
  datatype JsNumber = NaN | Finite(v: real)

  /** `Number(s)` for a string: surrounding whitespace is ignored, the empty
      string is 0, and an optionally signed run of decimal digits has its
      decimal value. */
  function StringToNumber(s: string): JsNumber {
    var t := Trim(s);
    if t == [] then Finite(0.0)
    else if AllDecimal(t) then Finite(DigitsValue(t, 10) as real)
    else if |t| >= 2 && (t[0] == '+' || t[0] == '-') && AllDecimal(t[1..]) then
      var v := DigitsValue(t[1..], 10) as real;
      Finite(if t[0] == '-' then -v else v)
    else NaN
  }

  /** `Number(v)`. */
  function NumberOf(v: JsValue): JsNumber {
    match v
    case Undefined => NaN
    case Null => Finite(0.0)
    case Boolean(b) => Finite(if b then 1.0 else 0.0)
    case Number(x) => Finite(x)
    case Text(s) => StringToNumber(s)
  }

  /** `a === b` on numbers: NaN equals nothing, not even itself. */
  predicate StrictEquals(a: JsNumber, b: JsNumber) {
    a.Finite? && b.Finite? && a.v == b.v
  }

  /** A decimal digit string, with or without leading zeros, converts to its
      value; in particular `Number(n.toString())` is `n`. */
  lemma DigitStringNumber(k: nat, n: nat)
    ensures StringToNumber(Zeros(k) + NatToDecimal(n)) == Finite(n as real)
  {
    var s := Zeros(k) + NatToDecimal(n);
    assert AllDecimal(s);
    assert forall i :: 0 <= i < |s| ==> !IsJsSpace(s[i]);
    assert LeadingSpaces(s) == 0;
    assert Trim(s) == s;
    LeadingZerosValue(k, NatToDecimal(n), 10);
    DecimalRoundTrip(n);
  }

  // ---------------------------------------------------------------------
  // parseInt(...)

  /** `parseInt(string, radix)` as section 19.2.5 of ECMA-262 defines it:
      leading whitespace skipped, one optional sign, a `0x`/`0X` prefix
      switching to base 16 when no radix (or radix 16) is given, then the
      longest run of digits valid in the base; no digits is NaN (`None`).
      `radix` is `None` when the argument is omitted. */
  function ParseInt(input: string, radix: Option<int>): (r: Option<int>)
    ensures r.Some? ==> exists i :: 0 <= i < |input| && DigitOf(input[i]) < 36
  {
    var s := TrimStart(input);
    var negative := s != [] && s[0] == '-';
    var s1 := if s != [] && (s[0] == '-' || s[0] == '+') then s[1..] else s;
    var r0 := match radix case None => 0 case Some(x) => x;
    if r0 != 0 && (r0 < 2 || r0 > 36) then None
    else
      var stripPrefix := r0 == 0 || r0 == 16;
      var hasPrefix := stripPrefix && |s1| >= 2 && s1[0] == '0' && (s1[1] == 'x' || s1[1] == 'X');
      var base := if hasPrefix then 16 else if r0 == 0 then 10 else r0;
      var s2 := if hasPrefix then s1[2..] else s1;
      var n := DigitRun(s2, base);
      if n == 0 then None
      else
        assert DigitOf(s2[0]) < 36;
        var v: int := DigitsValue(s2[..n], base);
        Some(if negative then -v else v)
  }

  /** `parseInt` of a decimal rendering gives the number back, with or
      without an explicit radix of 10. */
  lemma ParseIntOfDecimal(n: nat, radix: Option<int>)
    requires radix == None || radix == Some(10)
    ensures ParseInt(NatToDecimal(n), radix) == Some(n)
  {
    ParseIntOfDigits(NatToDecimal(n), radix);
    DecimalRoundTrip(n);
  }

  /** `parseInt` reads a non-empty string of decimal digits as its
      positional value: no whitespace, sign or `0x` prefix can be present. */
  lemma ParseIntOfDigits(s: string, radix: Option<int>)
    requires s != [] && AllDecimal(s)
    requires radix == None || radix == Some(10)
    ensures ParseInt(s, radix) == Some(DigitsValue(s, 10))
  {
    assert !IsJsSpace(s[0]);
    assert LeadingSpaces(s) == 0;
    assert TrimStart(s) == s;
    assert s[0] != '-' && s[0] != '+';
    var hasPrefix := |s| >= 2 && s[0] == '0' && (s[1] == 'x' || s[1] == 'X');
    assert !hasPrefix by {
      if |s| >= 2 { assert IsDecimalDigit(s[1]); }
    }
    DigitRunAll(s, 10);
    assert s[..|s|] == s;
    if radix == None {
      assert ParseInt(s, None) == Some(DigitsValue(s, 10));
    } else {
      assert ParseInt(s, Some(10)) == Some(DigitsValue(s, 10));
    }
  }

  lemma {:induction false} DigitRunAll(s: string, base: nat)
    requires AllDecimal(s) && base == 10
    ensures DigitRun(s, base) == |s|
  {
    if s != [] {
      DigitRunAll(s[1..], base);
    }
  }
}

=== FILE: models.dfy ===
/** The persisted documents: users (models/User.js), email-verification
    OTP records (models/VerifyModel.js) and refresh-token session records
    (models/refreshToken.model.js), with the defaults, normalising setters and
    time-to-live rules that shape them. The clock is one natural number of
    milliseconds. */
module Models {
  import opened Js

  type UserId = nat

  datatype Role = Student | Instructor | Admin

  /** Profile picture reference. */
  datatype Avatar = Avatar(url: string, publicId: Option<string>)

  const DEFAULT_AVATAR_URL := "https://res.cloudinary.com/dksgrqazo/image/upload/v1754118560/user-icon_qthvuz.png"

  datatype User = User(
    id: UserId,
    email: string,
    passwordHash: string,
    firstName: string,
    lastName: string,
    avatar: Avatar,
    bio: Option<string>,
    role: Role,
    isActive: bool,
    isEmailVerified: bool)

  /** A user as the handlers expose it: the same document with the password
      field removed. */
  datatype PublicUser = PublicUser(
    id: UserId,
    email: string,
    firstName: string,
    lastName: string,
    avatar: Avatar,
    bio: Option<string>,
    role: Role,
    isActive: bool,
    isEmailVerified: bool)

  function ToPublic(u: User): (p: PublicUser)
    ensures p.id == u.id && p.email == u.email && p.role == u.role
    ensures p.firstName == u.firstName && p.lastName == u.lastName
    ensures p.avatar == u.avatar && p.bio == u.bio
    ensures p.isActive == u.isActive && p.isEmailVerified == u.isEmailVerified
  {
    PublicUser(u.id, u.email, u.firstName, u.lastName, u.avatar, u.bio, u.role, u.isActive, u.isEmailVerified)
  }

  /** The `lowercase` and `trim` setters on the email field; they run both
      when a user is stored and when a filter on `email` is cast, so lookups
      by email compare normalised forms. */
  function NormalizeEmail(e: string): string {
    ToLowerAscii(Trim(e))
  }

  /** Normalising a normalised email changes nothing, so a filter on a
      stored email is cast to that same email. */
  lemma NormalizeEmailIdempotent(e: string)
    ensures NormalizeEmail(NormalizeEmail(e)) == NormalizeEmail(e)
  {
    var t := Trim(e);
    var l := ToLowerAscii(t);
    if l != [] {
      assert l[0] == LowerAscii(t[0]) && l[|l| - 1] == LowerAscii(t[|t| - 1]);
      assert LeadingSpaces(l) == 0;
      assert TrimStart(l) == l;
      assert TrailingSpaces(l) == 0;
    }
    assert Trim(l) == l;
    assert ToLowerAscii(l) == l;
  }

  /** A newly registered user with the schema defaults: student role,
      active, unverified, the default avatar and no bio; names are stored
      trimmed by the `trim` setter. */
  function NewUser(id: UserId, email: string, passwordHash: string, firstName: string, lastName: string): (u: User)
    ensures u.id == id && u.passwordHash == passwordHash
    ensures u.email == NormalizeEmail(email)
    ensures u.firstName == Trim(firstName) && u.lastName == Trim(lastName)
    ensures u.role == Student && u.isActive && !u.isEmailVerified
    ensures u.avatar == Avatar(DEFAULT_AVATAR_URL, None) && u.bio == None
  {
    User(id, NormalizeEmail(email), passwordHash, Trim(firstName), Trim(lastName),
         Avatar(DEFAULT_AVATAR_URL, None), None, Student, true, false)
  }

  /** An email-verification code: the owning user, the code as text and
      the creation instant. */
  datatype OtpRecord = OtpRecord(userId: UserId, otp: string, createdAt: nat)

  /** The record's time to live: 120 seconds after `createdAt`. */
  const OTP_TTL_MS := 120 * 1000

  /** The store's expiry rule taken as exact: a record exists until its
      time to live has elapsed. */
  predicate OtpLive(r: OtpRecord, now: nat) {
    now < r.createdAt + OTP_TTL_MS
  }

  /** A refresh-token session: the owner, the token, the client fingerprint
      (address and user agent) and the absolute expiry. */
  datatype Session = Session(
    userId: UserId,
    token: string,
    ipAddress: string,
    userAgent: string,
    createdAt: nat,
    expiresAt: nat)

  /** The store's expiry rule taken as exact: the record exists while
      `expiresAt` lies in the future. */
  predicate SessionLive(s: Session, now: nat) {
    now < s.expiresAt
  }

  /** A record live at some instant was live at every earlier instant. */
  lemma LivenessMonotone(r: OtpRecord, s: Session, t: nat, t': nat)
    requires t <= t'
    ensures OtpLive(r, t') ==> OtpLive(r, t)
    ensures SessionLive(s, t') ==> SessionLive(s, t)
  {
  }
}

=== FILE: name_validator.dfy ===
/** The person-name check shared by registration and profile updates
    (utils/nameValidator.js). The Unicode letter class is a predicate the
    caller supplies. */
module NameValidator {
  import opened Js

  /** `validator.isLength`'s notion of length: code points, leaving out the
      variation selectors U+FE0E and U+FE0F. */
  function ValidatorLength(s: string): (n: nat)
    ensures n <= |s|
  {
    if s == [] then 0
    else (if s[0] == '\U{FE0E}' || s[0] == '\U{FE0F}' then 0 else 1) + ValidatorLength(s[1..])
  }

  const MIN_NAME_LENGTH := 2
  const MAX_NAME_LENGTH := 50

  /** A character of the class `[\p{L}\s'-]`. */
  predicate NameChar(c: char, isLetter: char -> bool) {
    isLetter(c) || IsJsSpace(c) || c == '\'' || c == '-'
  }

  predicate NameChars(s: string, isLetter: char -> bool) {
    forall i :: 0 <= i < |s| ==> NameChar(s[i], isLetter)
  }

  /** Three checks in order: not blank once whitespace is ignored; trimmed
      length between 2 and 50; the whole untrimmed string in the class
      `[\p{L}\s'-]`, at least one character. A name is accepted exactly when
      it passes all three. */
  function ValidateName(name: string, isLetter: char -> bool): (ok: bool)
    ensures ok <==>
      && Trim(name) != []
      && MIN_NAME_LENGTH <= ValidatorLength(Trim(name)) <= MAX_NAME_LENGTH
      && NameChars(name, isLetter)
  {
    if Trim(name) == [] then false
    else if !(MIN_NAME_LENGTH <= ValidatorLength(Trim(name)) <= MAX_NAME_LENGTH) then false
    else if !(|name| > 0 && NameChars(name, isLetter)) then false
    else true
  }

  /** An empty or whitespace-only name is rejected. */
  lemma BlankNameRejected(name: string, isLetter: char -> bool)
    requires forall i :: 0 <= i < |name| ==> IsJsSpace(name[i])
    ensures !ValidateName(name, isLetter)
  {
  }

  /** Whitespace passes the character class, so checking the untrimmed
      string accepts the same names as checking the trimmed one: a name is
      valid exactly when its trimmed form is. */
  lemma ValidateNameTrimInvariant(name: string, isLetter: char -> bool)
    ensures ValidateName(name, isLetter) <==> ValidateName(Trim(name), isLetter)
  {
    var t := Trim(name);
    var a := LeadingSpaces(name);
    TrimIdempotent(name);
    assert t == name[a..a + |t|];
    if NameChars(name, isLetter) {
      forall i | 0 <= i < |t| ensures NameChar(t[i], isLetter) {
        assert t[i] == name[a + i];
      }
    }
    if NameChars(t, isLetter) {
      forall i | 0 <= i < |name| ensures NameChar(name[i], isLetter) {
        if i < a {
          assert IsJsSpace(name[i]);
        } else if i < a + |t| {
          assert name[i] == t[i - a];
        } else {
          assert IsJsSpace(name[i]);
        }
      }
    }
  }
}

=== FILE: store.dfy ===
/** A document collection as an insertion-ordered sequence, with the three
    queries the controllers issue against it: the first document matching a
    filter (`findOne`, `findById`, `deleteOne`), removal of one document, and
    the documents matching a filter (`find`, `countDocuments`). Treating
    `findOne` as "first match in insertion order" assumes the store returns
    documents in natural order. */
module Store {
  import opened Js

  /** Index of the first element satisfying `p`, if any. */
  function FindFirst<T>(s: seq<T>, p: T -> bool): (r: Option<nat>)
    ensures r.Some? ==> r.value < |s| && p(s[r.value])
    ensures r.Some? ==> forall j :: 0 <= j < r.value ==> !p(s[j])
    ensures r.None? ==> forall j :: 0 <= j < |s| ==> !p(s[j])
  {
    if s == [] then None
    else if p(s[0]) then Some(0)
    else match FindFirst(s[1..], p)
      case None => None
      case Some(i) => Some(i + 1)
  }

  /** The sequence without its `i`-th element, the others kept in order. */
  function RemoveAt<T>(s: seq<T>, i: nat): (r: seq<T>)
    requires i < |s|
    ensures |r| == |s| - 1
    ensures forall j :: 0 <= j < i ==> r[j] == s[j]
    ensures forall j :: i <= j < |r| ==> r[j] == s[j + 1]
    ensures multiset(r) + multiset{s[i]} == multiset(s)
  {
    assert s == s[..i] + [s[i]] + s[i + 1..];
    s[..i] + s[i + 1..]
  }

  /** The elements satisfying `p`, in their original order. */
  function Filter<T(!new)>(s: seq<T>, p: T -> bool): (r: seq<T>)
    ensures |r| <= |s|
    ensures forall x :: x in r <==> x in s && p(x)
  {
    if s == [] then []
    else if p(s[0]) then [s[0]] + Filter(s[1..], p)
    else Filter(s[1..], p)
  }

  /** Filtering a concatenation filters each part and keeps them in
      order. */
  lemma {:induction false} FilterAppend<T(!new)>(a: seq<T>, b: seq<T>, p: T -> bool)
    ensures Filter(a + b, p) == Filter(a, p) + Filter(b, p)
    decreases |a|
  {
    if a == [] {
      assert a + b == b;
    } else {
      assert (a + b)[0] == a[0];
      assert (a + b)[1..] == a[1..] + b;
      FilterAppend(a[1..], b, p);
    }
  }

  /** A one-element collection keeps its element exactly when it passes. */
  lemma FilterSingle<T(!new)>(x: T, p: T -> bool)
    ensures Filter([x], p) == (if p(x) then [x] else [])
  {
    assert [x][1..] == [];
  }

  /** Removing an element adds nothing: what is left was there before. */
  lemma RemoveAtKeeps<T>(s: seq<T>, i: nat, x: T)
    requires i < |s|
    ensures x in RemoveAt(s, i) ==> x in s
  {
    var r := RemoveAt(s, i);
    if x in r {
      var k :| 0 <= k < |r| && r[k] == x;
      if k < i { assert s[k] == x; } else { assert s[k + 1] == x; }
    }
  }

  /** Two collections that agree, position by position, on a filter give
      the same first match. */
  lemma {:induction false} FindFirstAgrees<T, U>(s: seq<T>, p: T -> bool, s': seq<U>, p': U -> bool)
    requires |s| == |s'|
    requires forall i :: 0 <= i < |s| ==> p(s[i]) == p'(s'[i])
    ensures FindFirst(s, p) == FindFirst(s', p')
  {
    if s != [] && !p(s[0]) {
      assert forall i :: 0 <= i < |s| - 1 ==> s[1..][i] == s[i + 1] && s'[1..][i] == s'[i + 1];
      FindFirstAgrees(s[1..], p, s'[1..], p');
    }
  }

  /** The first match in a sequence extended by one element, when none of
      the earlier elements matches and the new one does. */
  lemma {:induction false} FindFirstAppend<T>(s: seq<T>, x: T, p: T -> bool)
    requires forall j :: 0 <= j < |s| ==> !p(s[j])
    requires p(x)
    ensures FindFirst(s + [x], p) == Some(|s|)
  {
    if s != [] {
      assert (s + [x])[1..] == s[1..] + [x];
      FindFirstAppend(s[1..], x, p);
    }
  }
}

=== FILE: user_controller.dfy ===
/** The profile and listing handlers (controllers/user.controller.js):
    `updateProfile`, which validates a sparse request and writes only the
    supplied fields, and the three paginated listings `getAllUsers`,
    `getAllInstructors` and `getAllStudents`. */
module UserController {
  import opened Js
  import opened Http
  import opened Models
  import opened Store
  import opened Externals
  import opened NameValidator

  // ---------------------------------------------------------------------
  // updateProfile

  /** The `avatar` object of a request; either key may be missing. */
  datatype AvatarInput = AvatarInput(url: Option<string>, publicId: Option<string>)

  /** The body of a profile update; `None` is a key the body leaves out. */
  datatype ProfileRequest = ProfileRequest(
    firstName: Option<string>,
    lastName: Option<string>,
    bio: Option<string>,
    avatar: Option<AvatarInput>)

  /** The `$set` document: one entry per field to overwrite. */
  datatype ProfileUpdates = ProfileUpdates(
    firstName: Option<string>,
    lastName: Option<string>,
    bio: Option<string>,
    avatar: Option<Avatar>)

  datatype Built = Refused(message: string) | Valid(updates: ProfileUpdates)

  const MSG_BAD_FIRST_NAME := "Invalid first name"
  const MSG_BAD_LAST_NAME := "Invalid last name"
  const MSG_BIO_TOO_LONG := "Bio too long"
  const MSG_BAD_AVATAR := "Invalid avatar"
  const MSG_USER_NOT_FOUND := "User not found"
  const MSG_PROFILE_UPDATED := "Profile updated successfully"

  /** The handler's own bound on a bio, measured after trimming. */
  const MAX_BIO_TRIMMED := 300
  /** The schema's `maxlength` on the stored bio, enforced on update. */
  const MAX_BIO_STORED := 500

  predicate FirstNameOk(r: ProfileRequest, lib: Lib) {
    r.firstName.None? || ValidateName(r.firstName.value, lib.isLetter)
  }

  predicate LastNameOk(r: ProfileRequest, lib: Lib) {
    r.lastName.None? || ValidateName(r.lastName.value, lib.isLetter)
  }

  predicate BioOk(r: ProfileRequest) {
    r.bio.None? || Utf16Length(Trim(r.bio.value)) <= MAX_BIO_TRIMMED
  }

  /** Both keys present and non-empty, and the url a URL. */
  predicate AvatarOk(r: ProfileRequest, lib: Lib) {
    r.avatar.None? ||
      (Truthy(r.avatar.value.url) && Truthy(r.avatar.value.publicId) && lib.isURL(r.avatar.value.url.value))
  }

  /** The four checks in request order; the first that fails decides the
      message. When all pass, the update holds exactly the keys the request
      supplied: names trimmed, the bio as sent, and an avatar reduced to its
      url and public id. */
  function BuildUpdates(r: ProfileRequest, lib: Lib): (b: Built)
    ensures !FirstNameOk(r, lib) ==> b == Refused(MSG_BAD_FIRST_NAME)
    ensures FirstNameOk(r, lib) && !LastNameOk(r, lib) ==> b == Refused(MSG_BAD_LAST_NAME)
    ensures FirstNameOk(r, lib) && LastNameOk(r, lib) && !BioOk(r) ==> b == Refused(MSG_BIO_TOO_LONG)
    ensures FirstNameOk(r, lib) && LastNameOk(r, lib) && BioOk(r) && !AvatarOk(r, lib) ==>
      b == Refused(MSG_BAD_AVATAR)
    ensures b.Valid? <==> FirstNameOk(r, lib) && LastNameOk(r, lib) && BioOk(r) && AvatarOk(r, lib)
    ensures b.Valid? ==>
      && (b.updates.firstName.Some? <==> r.firstName.Some?)
      && (b.updates.lastName.Some? <==> r.lastName.Some?)
      && (b.updates.bio.Some? <==> r.bio.Some?)
      && (b.updates.avatar.Some? <==> r.avatar.Some?)
      && (r.firstName.Some? ==> b.updates.firstName.value == Trim(r.firstName.value))
      && (r.lastName.Some? ==> b.updates.lastName.value == Trim(r.lastName.value))
      && b.updates.bio == r.bio
      && (r.avatar.Some? ==>
            b.updates.avatar.value == Avatar(r.avatar.value.url.value, Some(r.avatar.value.publicId.value)))
  {
    if !FirstNameOk(r, lib) then Refused(MSG_BAD_FIRST_NAME)
    else if !LastNameOk(r, lib) then Refused(MSG_BAD_LAST_NAME)
    else if !BioOk(r) then Refused(MSG_BIO_TOO_LONG)
    else if !AvatarOk(r, lib) then Refused(MSG_BAD_AVATAR)
    else
      var first := if r.firstName.Some? then Some(Trim(r.firstName.value)) else None;
      var last := if r.lastName.Some? then Some(Trim(r.lastName.value)) else None;
      var avatar := if r.avatar.Some? then Some(Avatar(r.avatar.value.url.value, Some(r.avatar.value.publicId.value))) else None;
      Valid(ProfileUpdates(first, last, r.bio, avatar))
  }

  /** `$set`: the supplied fields overwrite, every other field stays. */
  function ApplyUpdates(u: User, d: ProfileUpdates): (v: User)
    ensures v.id == u.id && v.email == u.email && v.passwordHash == u.passwordHash
    ensures v.role == u.role && v.isActive == u.isActive && v.isEmailVerified == u.isEmailVerified
    ensures v.firstName == (if d.firstName.Some? then d.firstName.value else u.firstName)
    ensures v.lastName == (if d.lastName.Some? then d.lastName.value else u.lastName)
    ensures v.bio == (if d.bio.Some? then d.bio else u.bio)
    ensures v.avatar == (if d.avatar.Some? then d.avatar.value else u.avatar)
  {
    u.(firstName := if d.firstName.Some? then d.firstName.value else u.firstName,
       lastName := if d.lastName.Some? then d.lastName.value else u.lastName,
       bio := if d.bio.Some? then d.bio else u.bio,
       avatar := if d.avatar.Some? then d.avatar.value else u.avatar)
  }

  /** The schema validators the update runs: only the bio's `maxlength` can
      fail once the handler's own checks have passed. */
  predicate StoredBioOk(d: ProfileUpdates) {
    d.bio.None? || Utf16Length(d.bio.value) <= MAX_BIO_STORED
  }

  datatype ProfileOutcome = ProfileOutcome(users: seq<User>, reply: Reply<PublicUser>)

  /** `updateProfile` for the authenticated caller. A failed check: 400 with
      its message, nothing written. A bio the schema's `maxlength` refuses
      (possible when padding whitespace keeps the trimmed text short): 500,
      nothing written. No document with the caller's id: 404. Otherwise only
      the caller's document changes, by exactly the supplied fields, and the
      reply carries it without its password. */
  function UpdateProfile(users: seq<User>, caller: UserId, r: ProfileRequest, lib: Lib): (out: ProfileOutcome)
    ensures out.reply.status != OK ==> out.users == users
    ensures BuildUpdates(r, lib).Refused? ==>
      out.reply == Error(BAD_REQUEST, BuildUpdates(r, lib).message)
    ensures BuildUpdates(r, lib).Valid? && !StoredBioOk(BuildUpdates(r, lib).updates) ==>
      out.reply.status == INTERNAL_SERVER_ERROR
    ensures BuildUpdates(r, lib).Valid? && StoredBioOk(BuildUpdates(r, lib).updates) ==>
      match FindFirst(users, (u: User) => u.id == caller)
      case None => out.reply == Error(NOT_FOUND, MSG_USER_NOT_FOUND)
      case Some(i) =>
        var v := ApplyUpdates(users[i], BuildUpdates(r, lib).updates);
        && out.reply.status == OK
        && out.reply.body == Some(ToPublic(v))
        && |out.users| == |users|
        && out.users[i] == v
        && forall j :: 0 <= j < |users| && j != i ==> out.users[j] == users[j]
  {
    match BuildUpdates(r, lib)
    case Refused(msg) => ProfileOutcome(users, Error(BAD_REQUEST, msg))
    case Valid(d) =>
      if !StoredBioOk(d) then ProfileOutcome(users, Fault())
      else match FindFirst(users, (u: User) => u.id == caller)
        case None => ProfileOutcome(users, Error(NOT_FOUND, MSG_USER_NOT_FOUND))
        case Some(i) =>
          var v := ApplyUpdates(users[i], d);
          ProfileOutcome(users[i := v], Reply(OK, MSG_PROFILE_UPDATED, KeepCookies, Some(ToPublic(v))))
  }

  /** Names an accepted update stores still pass the name check, so a stored
      name never violates the rule it was admitted under. */
  lemma StoredNamesValid(users: seq<User>, caller: UserId, r: ProfileRequest, lib: Lib, i: nat)
    requires UpdateProfile(users, caller, r, lib).reply.status == OK
    requires FindFirst(users, (u: User) => u.id == caller) == Some(i)
    ensures r.firstName.Some? ==> ValidateName(UpdateProfile(users, caller, r, lib).users[i].firstName, lib.isLetter)
    ensures r.lastName.Some? ==> ValidateName(UpdateProfile(users, caller, r, lib).users[i].lastName, lib.isLetter)
  {
    if r.firstName.Some? {
      ValidateNameTrimInvariant(r.firstName.value, lib.isLetter);
    }
    if r.lastName.Some? {
      ValidateNameTrimInvariant(r.lastName.value, lib.isLetter);
    }
  }

  /** Sending the same accepted update twice leaves the store as sending it
      once did. */
  lemma UpdateProfileIdempotent(users: seq<User>, caller: UserId, r: ProfileRequest, lib: Lib)
    requires UpdateProfile(users, caller, r, lib).reply.status == OK
    ensures var once := UpdateProfile(users, caller, r, lib).users;
      UpdateProfile(once, caller, r, lib).users == once
  {
    var once := UpdateProfile(users, caller, r, lib).users;
    var p := (u: User) => u.id == caller;
    var i := FindFirst(users, p).value;
    FindFirstAgrees(users, p, once, p);
  }

  // ---------------------------------------------------------------------
  // Pagination

  /** A query-string value as `parseInt` sees it: an absent parameter is
      the value `undefined`, converted to the text "undefined". */
  function QueryText(q: Option<string>): string {
    match q
    case None => "undefined"
    case Some(s) => s
  }

  /** `parseInt(q, radix) || fallback`: the parsed number unless it is NaN
      or zero. */
  function IntParam(q: Option<string>, radix: Option<int>, fallback: int): (n: int)
    ensures n == fallback || ParseInt(QueryText(q), radix) == Some(n)
    ensures ParseInt(QueryText(q), radix).None? || ParseInt(QueryText(q), radix) == Some(0) ==> n == fallback
    ensures fallback != 0 ==> n != 0
    ensures ParseInt(QueryText(q), radix).Some? && ParseInt(QueryText(q), radix).value != 0 ==>
      n == ParseInt(QueryText(q), radix).value
  {
    match ParseInt(QueryText(q), radix)
    case None => fallback
    case Some(v) => if v != 0 then v else fallback
  }

  const DEFAULT_PAGE := 1
  const DEFAULT_LIMIT := 10

  /** `Math.ceil(a / b)` on integers. */
  function CeilDiv(a: int, b: int): (c: int)
    requires b != 0
    ensures b > 0 ==> (c - 1) * b < a <= c * b
    ensures b < 0 ==> c * b <= a < (c - 1) * b
  {
    if b > 0 then
      var q := (-a) / b;
      assert q * b <= -a < q * b + b;
      -q
    else
      var q := a / (-b);
      assert q * (-b) <= a < q * (-b) + (-b);
      -q
  }

  /** Which documents a listing shows. */
  datatype Audience = NonAdmins | Instructors | Students

  function InAudience(a: Audience): User -> bool {
    (u: User) =>
      match a
      case NonAdmins => u.role != Admin
      case Instructors => u.role == Instructor
      case Students => u.role == Student
  }

  /** The radix each handler passes to `parseInt`: only the instructor
      listing gives 10 explicitly. */
  function RadixOf(a: Audience): Option<int> {
    if a == Instructors then Some(10) else None
  }

  function EmptyMessage(a: Audience): string {
    match a
    case NonAdmins => "no users found"
    case Instructors => "no instructors found"
    case Students => "No students found"
  }

  /** `skip(skip).limit(limit)` on a result list: a negative limit returns
      as many documents as its absolute value. */
  function PageOf<T>(xs: seq<T>, skip: nat, limit: int): (p: seq<T>)
    ensures |p| <= (if limit < 0 then -limit else limit)
    ensures skip >= |xs| ==> p == []
    ensures forall k :: 0 <= k < |p| ==> skip + k < |xs| && p[k] == xs[skip + k]
    ensures limit != 0 && skip < |xs| ==> p != []
    ensures skip < |xs| ==>
      var k := if limit < 0 then -limit else limit;
      |p| == (if |xs| - skip < k then |xs| - skip else k)
  {
    var k := if limit < 0 then -limit else limit;
    if skip >= |xs| then []
    else if skip + k >= |xs| then xs[skip..]
    else xs[skip..skip + k]
  }

  /** The `pagination` object; `limit` is reported only by the user
      listing. */
  datatype Pagination = Pagination(total: nat, page: int, limit: Option<int>, pages: int)

  datatype Listing = Listing(items: seq<PublicUser>, pagination: Pagination)

  /** The documents a listing selects, in store order, without passwords. */
  function Selected(users: seq<User>, a: Audience): seq<PublicUser> {
    Public(Filter(users, InAudience(a)))
  }

  function Public(us: seq<User>): (ps: seq<PublicUser>)
    ensures |ps| == |us|
    ensures forall k :: 0 <= k < |us| ==> ps[k] == ToPublic(us[k])
  {
    if us == [] then [] else [ToPublic(us[0])] + Public(us[1..])
  }

  /** The three listing handlers. `page` and `limit` come from the query
      with fallbacks 1 and 10; a negative offset `(page - 1) * limit` is
      refused by the database (500); an empty page is a 404 with the
      listing's message; otherwise the page of the selected documents and
      the total count, with `pages = ceil(total / limit)`. */
  function ListUsers(users: seq<User>, a: Audience, pageQ: Option<string>, limitQ: Option<string>): (r: Reply<Listing>)
    ensures var page := IntParam(pageQ, RadixOf(a), DEFAULT_PAGE);
      var limit := IntParam(limitQ, RadixOf(a), DEFAULT_LIMIT);
      var all := Selected(users, a);
      && ((page - 1) * limit < 0 ==> r.status == INTERNAL_SERVER_ERROR)
      && ((page - 1) * limit >= 0 ==>
            && (r.status == OK <==> (page - 1) * limit < |all|)
            && (r.status != OK ==> r == Error(NOT_FOUND, EmptyMessage(a)))
            && (r.status == OK ==>
                  && r.body.Some?
                  && r.body.value.items == PageOf(all, (page - 1) * limit, limit)
                  && r.body.value.pagination.total == |all|
                  && r.body.value.pagination.page == page
                  && r.body.value.pagination.pages == CeilDiv(|all|, limit)
                  && r.body.value.pagination.limit == (if a == NonAdmins then Some(limit) else None)))
  {
    var page := IntParam(pageQ, RadixOf(a), DEFAULT_PAGE);
    var limit := IntParam(limitQ, RadixOf(a), DEFAULT_LIMIT);
    var skip := (page - 1) * limit;
    if skip < 0 then Fault()
    else
      var all := Selected(users, a);
      var items := PageOf(all, skip, limit);
      if items == [] then Error(NOT_FOUND, EmptyMessage(a))
      else
        var reported := if a == NonAdmins then Some(limit) else None;
        Reply(OK, "", KeepCookies, Some(Listing(items, Pagination(|all|, page, reported, CeilDiv(|all|, limit)))))
  }

  /** Without query parameters a listing shows the first ten selected
      documents. */
  lemma ListingDefaults(users: seq<User>, a: Audience)
    ensures var r := ListUsers(users, a, None, None);
      r.status == OK ==> r.body.value.items == PageOf(Selected(users, a), 0, DEFAULT_LIMIT)
  {
    UndefinedIsNaN(RadixOf(a));
  }

  /** `parseInt(undefined)` is NaN, with or without a radix of 10. */
  lemma UndefinedIsNaN(radix: Option<int>)
    requires radix == None || radix == Some(10)
    ensures ParseInt(QueryText(None), radix).None?
  {
    var s := "undefined";
    assert s[0] == 'u' && !IsJsSpace(s[0]);
    assert LeadingSpaces(s) == 0;
    assert TrimStart(s) == s;
    assert DigitOf(s[0]) == 30;
    assert DigitRun(s, 10) == 0;
  }

  /** A page number written in decimal reaches the handler unchanged,
      whichever radix argument the handler passes. */
  lemma PageQueryRoundTrip(n: nat, a: Audience)
    requires n >= 1
    ensures IntParam(Some(NatToDecimal(n)), RadixOf(a), DEFAULT_PAGE) == n
  {
    ParseIntOfDecimal(n, RadixOf(a));
  }

  /** For a positive limit and page, a listing page is non-empty exactly
      when the page number is at most the reported page count. */
  lemma PageNonEmptyIff(total: nat, page: int, limit: int)
    requires page >= 1 && limit > 0
    ensures (page - 1) * limit < total <==> page <= CeilDiv(total, limit)
  {
    var c := CeilDiv(total, limit);
    if page <= c {
      assert (page - 1) * limit <= (c - 1) * limit;
    } else {
      assert c <= page - 1;
      assert c * limit <= (page - 1) * limit;
    }
  }

  /** Every selected document is shown, on page `j / limit + 1` at position
      `j % limit`, for a positive limit. */
  lemma {:induction false} EveryItemOnItsPage<T>(xs: seq<T>, limit: int, j: nat)
    requires limit > 0 && j < |xs|
    ensures var page := j / limit + 1;
      var p := PageOf(xs, (page - 1) * limit, limit);
      j % limit < |p| && p[j % limit] == xs[j]
  {
    var page := j / limit + 1;
    var skip := (page - 1) * limit;
    assert skip == (j / limit) * limit;
    assert skip + j % limit == j;
    var p := PageOf(xs, skip, limit);
    assert skip <= j < |xs|;
    if skip + limit >= |xs| {
      assert p == xs[skip..];
    } else {
      assert p == xs[skip..skip + limit];
    }
  }
}
